=== FILE: README.md ===
# Lava message infrastructure: channels, rings and address registry

This project models the channels that carry messages between Lava processes.
Each channel has a send port and a receive port around a bounded ring of
message slots. The model covers:

- the Python CSP channel (`PyPyChannel`, `SendPort`, `RecvPort`, `select`).
  Its ring of numpy-array slots is guarded by a `req` and an `ack`
  semaphore. A background thread on each side turns semaphore releases into
  capacity or queue entries.
- the native shared-memory channel (`ShmemChannel`, `ShmemSendPort`,
  `ShmemRecvPort`, `ShmemBlockRecvPort`). It copies a `MetaData` header and
  its payload bytes into fixed-size slots of one shared segment.
- the gRPC server-side ring (`GrpcChannelServerImpl`). It is a
  single-producer, single-consumer buffer of `size` slots holding at most
  `size - 1` messages.
- the conversions between `MetaData` and the wire message `GrpcMetaData`.
- the process-wide `GrpcManager`, which hands out unused `host+port`
  addresses.
- the compiler's channel builders. They decide which single
  infrastructure call a build makes.

Blocking calls are modelled as one attempt. The attempt either completes or
reports `Pending` (or `Closed` once the port is stopped) and changes
nothing. The caller's retry loop, sleeping and waiting are not modelled.
Background threads become step methods (`AckStep`, `ReqStep`).

Each ring carries a ghost view of its contents:
- `Csp.PyPyChannel.InFlight` for the Python channel;
- `ShmemPort.InFlight` for the shared-memory channel;
- `GrpcChannel.GrpcChannelServerImpl.Contents` for the gRPC ring.

Every send and receive is proved against that view. Sending appends the
message. Receiving returns the first message and drops it.

Probes are tied to the counters behind each view, not to the view alone:
- On the gRPC ring, `Probe` is true exactly when the view is non-empty.
- The shared-memory receivers probe true exactly when a request is pending.
- The Python receiver's probe implies a message is in flight. Markers lag
  behind `req`, so the converse does not hold.
- The Python sender's probe holds exactly when the in-flight messages plus
  the unprocessed acks leave room.
- The shared-memory sender's probe is always false.

The byte layout of a shared-memory slot is modelled down to the byte.
Writing a message and reading the slot back yields the message truncated to
its announced length.

The gRPC conversions are inverse within these limits:
- A record sent and converted back keeps its header fields. Its payload is
  cut to the first `4 * total_size` bytes.
- A wire message converted to a record and back is unchanged when it has
  five dims, five strides, exactly `total_size` values, and every value fits
  in 32 bits.

Modules:
- `Ring`: wrap-around cursor arithmetic and windows of a ring;
- `Bytes`: little-endian integers;
- `Meta`: the `MetaData` record and its header bytes;
- `Csp`: `pypychannel.py`;
- `GrpcChannel`: `grpc_channel.cc`;
- `ShmemPort`: `shmem_port.cc`;
- `ShmemChannels`: `shmem_channel.cc`;
- `ChannelBuilders`: `channel_builder.py`;
- `GrpcUrls`: `grpc.h`.

## Model

| member | source | states |
|---|---|---|
| Ring.Slot | src/lava/magma/runtime/message_infrastructure/pypychannel.py:138 | The cursor `k` steps after `start` is `(start + k) mod size` and stays inside the ring. |
| Ring.Next | src/lava/magma/runtime/message_infrastructure/message_infrastructure/csrc/channel/grpc_channel/grpc_channel.cc:66-69 | Advancing an index by one with wrap-around gives `(i + 1) mod size`, still a valid slot. |
| Ring.SlotStep | src/lava/magma/runtime/message_infrastructure/pypychannel.py:138 | Advancing the writer (or the reader) by one slot is the same as counting one more message from the reader. |
| Ring.Window | src/lava/magma/runtime/message_infrastructure/pypychannel.py:282-286 | The `n` queued slots read in order from the reader's cursor, each at its wrapped position. |
| Ring.SlotInjective | src/lava/magma/runtime/message_infrastructure/pypychannel.py:138 | Fewer than `size` steps apart, two cursors are at different slots, so a write never lands on a queued message. |
| Ring.WindowPush | src/lava/magma/runtime/message_infrastructure/pypychannel.py:136-138 | Writing `x` at the slot after the queued ones appends `x` to the window of queued messages. |
| Ring.WindowPop | src/lava/magma/runtime/message_infrastructure/pypychannel.py:284-286 | Advancing the reader by one drops exactly the first queued message. |
| Bytes.FromLEToLE | src/lava/magma/runtime/message_infrastructure/message_infrastructure/csrc/channel/grpc_channel/grpc_channel.cc:186-188 | Decoding the little-endian bytes of an in-range value gives the value back. |
| Bytes.ToLEFromLE | src/lava/magma/runtime/message_infrastructure/message_infrastructure/csrc/channel/grpc_channel/grpc_channel.cc:214-216 | Encoding the value that some bytes decode to gives those bytes back. |
| Bytes.IntRoundTrip | src/lava/magma/runtime/message_infrastructure/message_infrastructure/csrc/channel/grpc_channel/grpc_channel.cc:186-188 | A signed integer that fits in `n` bytes survives a two's-complement encode then decode. |
| Bytes.BytesRoundTrip | src/lava/magma/runtime/message_infrastructure/message_infrastructure/csrc/channel/grpc_channel/grpc_channel.cc:214-216 | Any `n` bytes survive a decode then encode as a signed integer. |
| Bytes.Int32 | src/lava/magma/runtime/_c_message_infrastructure/csrc/channel/shmem/shmem_port.cc:60 | Storing into a C `int` always yields a 32-bit value, and leaves a value that already fits unchanged. |
| Meta.EmptyMeta | src/lava/magma/runtime/_c_message_infrastructure/csrc/channel/shmem/shmem_port.cc:132 | A value-initialised `MetaData` is well formed and carries no payload. |
| Meta.WordsRoundTrip | src/lava/magma/runtime/_c_message_infrastructure/csrc/channel/shmem/shmem_port.cc:66 | Copying 64-bit header words to bytes and reading them back gives the same words. |
| Meta.HeaderRoundTrip | src/lava/magma/runtime/_c_message_infrastructure/csrc/channel/shmem/shmem_port.cc:22-38 | The header bytes `Send` copies decode to the same record, minus its payload pointer. |
| Csp.NBytes | src/lava/magma/runtime/message_infrastructure/pypychannel.py:376-377 | The message size is positive for positive dimensions and a non-empty element type, and zero for a zero-size element. |
| Csp.Zeroed | src/lava/magma/runtime/message_infrastructure/pypychannel.py:369 | The initial slot contents of a fresh shared-memory block have the prototype's shape, hold `prod(shape)` elements (none when that product is negative) and are all zero. |
| Csp.Semaphore.constructor | src/lava/magma/runtime/message_infrastructure/pypychannel.py:370-371 | A semaphore starts with the given count. |
| Csp.Semaphore.Release | src/lava/magma/runtime/message_infrastructure/pypychannel.py:139 | `release` adds one permit. |
| Csp.Semaphore.TryAcquire | src/lava/magma/runtime/message_infrastructure/pypychannel.py:121-123 | A non-blocking `acquire` succeeds exactly when a permit is available, and then takes it. |
| Csp.SendPort.constructor | src/lava/magma/runtime/message_infrastructure/pypychannel.py:40-65 | A new send port stores its name, buffer, prototype, depth and semaphores, at slot 0, neither started nor done. |
| Csp.SendPort.Start | src/lava/magma/runtime/message_infrastructure/pypychannel.py:83-99 | As written, every call grants a fresh `size` permits, including a second call. The channel stays valid exactly when the port was unstarted or already held every permit; then the in-flight messages are unchanged. |
| Csp.SendPort.StartOnce | src/lava/magma/runtime/message_infrastructure/pypychannel.py:83-99 | Corrected: a second start keeps the permits of the first. The channel stays valid and the in-flight messages are unchanged. |
| Csp.FullPermitsIffIdle | src/lava/magma/runtime/message_infrastructure/pypychannel.py:93 | A started sender holds all `size` permits exactly when nothing is in flight and no ack is pending, so a restart breaks the slot balance exactly otherwise. |
| Csp.RestartWithItemUnread | src/lava/magma/runtime/message_infrastructure/pypychannel.py:83-99 | With one item sent and unread in a one-slot channel, restarting the sender gives it a permit while the request is still pending, and the channel is no longer valid. |
| Csp.SendPort.AckStep | src/lava/magma/runtime/message_infrastructure/pypychannel.py:101-114 | The ack thread turns one `ack` release into one more permit, never beyond `size`. It notifies the observer only on the empty-to-available edge, and exits once the port is done. |
| Csp.SendPort.Probe | src/lava/magma/runtime/message_infrastructure/pypychannel.py:116-124 | `probe` is true exactly when a permit is available. |
| Csp.SendPort.Send | src/lava/magma/runtime/message_infrastructure/pypychannel.py:126-139 | A wrong shape is rejected and, like a send with no permit (which waits), changes nothing. Otherwise the array is written at the cursor, the cursor advances, `req` is released, and the message joins the end of the in-flight sequence. |
| Csp.SendPort.Join | src/lava/magma/runtime/message_infrastructure/pypychannel.py:141-142 | `join` marks the port done. |
| Csp.RecvPort.constructor | src/lava/magma/runtime/message_infrastructure/pypychannel.py:185-212 | A new receive port stores its name, buffer, prototype, depth and semaphores, at slot 0, neither started nor done. |
| Csp.RecvPort.Start | src/lava/magma/runtime/message_infrastructure/pypychannel.py:230-250 | As written, every call installs a fresh empty marker queue, including a second call. The channel stays valid exactly when the port was unstarted or its queue was empty; then the in-flight messages are unchanged. |
| Csp.RecvPort.StartOnce | src/lava/magma/runtime/message_infrastructure/pypychannel.py:230-250 | Corrected: a second start keeps the queued markers. The channel stays valid and the in-flight messages are unchanged. |
| Csp.RecvPort.ReqStep | src/lava/magma/runtime/message_infrastructure/pypychannel.py:252-262 | The req thread turns one `req` release into one queue marker, never beyond `size`. It notifies the observer only on the empty-to-nonempty edge, and exits once the port is done. |
| Csp.RecvPort.Probe | src/lava/magma/runtime/message_infrastructure/pypychannel.py:264-269 | `probe` is true exactly when the local queue holds a marker. |
| Csp.RecvPort.Peek | src/lava/magma/runtime/message_infrastructure/pypychannel.py:150-176 | `peek` returns the oldest in-flight message without consuming it, or waits on an empty queue. |
| Csp.RecvPort.Recv | src/lava/magma/runtime/message_infrastructure/pypychannel.py:280-289 | `recv` returns the oldest in-flight message, read from the reader's slot. It drops that message, advances the cursor and releases `ack`. On an empty queue it waits with no change. |
| Csp.RecvPort.Join | src/lava/magma/runtime/message_infrastructure/pypychannel.py:291-293 | `join` marks the port done. |
| Csp.PyPyChannel.constructor | src/lava/magma/runtime/message_infrastructure/pypychannel.py:347-374 | A new channel has two ports over one shared buffer and semaphores at 0. Its prototype carries the computed byte size, and nothing is in flight. Both ports are unstarted, at cursor 0, not done and without an observer, so `Start`, `Send` and `Recv` can be driven from a new channel. |
| Csp.PyPyChannel.InFlight | src/lava/magma/runtime/message_infrastructure/pypychannel.py:126-139 | The messages sent and not yet received number the `req` count plus the receiver's markers, at most `size`. |
| Csp.InFlightBounded | src/lava/magma/runtime/message_infrastructure/pypychannel.py:93 | A channel never holds more than `size` messages, and the receiver's markers are always backed by messages. |
| Csp.ProbeMeaning | src/lava/magma/runtime/message_infrastructure/pypychannel.py:116-124 | The sender's probe holds exactly when in-flight messages plus unprocessed acks leave room. The receiver's probe implies a message is in flight. |
| Csp.Readiness | src/lava/magma/runtime/message_infrastructure/pypychannel.py:333-334 | One readiness flag per endpoint, each equal to that port's `probe`. |
| Csp.FirstReady | src/lava/magma/runtime/message_infrastructure/pypychannel.py:333-336 | The earliest ready endpoint, with none ready before it. None exactly when no endpoint is ready. |
| Csp.SetObserver | src/lava/magma/runtime/message_infrastructure/pypychannel.py:315-317 | Installs (or clears) the observer on every endpoint listed. |
| Csp.Select | src/lava/magma/runtime/message_infrastructure/pypychannel.py:319-340 | One pass of `select` picks the first endpoint whose probe holds. The observers stay installed only when none did. |
| GrpcChannel.EmptyGrpc | src/lava/magma/runtime/message_infrastructure/message_infrastructure/csrc/channel/grpc_channel/grpc_channel.cc:95 | A default-constructed wire message has no dims, strides or values. |
| GrpcChannel.Occupied | src/lava/magma/runtime/message_infrastructure/message_infrastructure/csrc/channel/grpc_channel/grpc_channel.cc:76-86 | The number of queued messages is the reader-to-writer distance, below `size`. |
| GrpcChannel.OccupiedSlot | src/lava/magma/runtime/message_infrastructure/message_infrastructure/csrc/channel/grpc_channel/grpc_channel.cc:76-86 | A writer `k` slots after the reader means `k` messages are queued. |
| GrpcChannel.NextFree | src/lava/magma/runtime/message_infrastructure/message_infrastructure/csrc/channel/grpc_channel/grpc_channel.cc:64-74 | `Push`'s test, next write index differs from read index, holds exactly when fewer than `size - 1` messages are queued. |
| GrpcChannel.AvailableAsWritten | src/lava/magma/runtime/message_infrastructure/message_infrastructure/csrc/channel/grpc_channel/grpc_channel.cc:76-86 | `AvailableCount` as written gives `size` on an empty ring and the free slots minus one otherwise. |
| GrpcChannel.AvailableAsWrittenSound | src/lava/magma/runtime/message_infrastructure/message_infrastructure/csrc/channel/grpc_channel/grpc_channel.cc:53-86 | From two slots up, `AvailableCount() > 0` agrees with `Push`'s own test, so an acked message is stored. |
| GrpcChannel.AckedButDropped | src/lava/magma/runtime/message_infrastructure/message_infrastructure/csrc/channel/grpc_channel/grpc_channel.cc:53-74 | With one slot, `AvailableCount` reports room while `Push` finds none, so the request is acked and dropped. |
| GrpcChannel.GrpcChannelServerImpl.constructor | src/lava/magma/runtime/message_infrastructure/message_infrastructure/csrc/channel/grpc_channel/grpc_channel.cc:44-50 | A new server ring has both indices at 0, is not stopped, and holds no messages. Its slot array is freshly allocated, so the caller may push onto it. |
| GrpcChannel.GrpcChannelServerImpl.Contents | src/lava/magma/runtime/message_infrastructure/message_infrastructure/csrc/channel/grpc_channel/grpc_channel.cc:64-110 | The queued messages, oldest first, number fewer than `size`. |
| GrpcChannel.GrpcChannelServerImpl.Empty | src/lava/magma/runtime/message_infrastructure/message_infrastructure/csrc/channel/grpc_channel/grpc_channel.cc:88-92 | Equal indices mean exactly that no message is queued. |
| GrpcChannel.GrpcChannelServerImpl.Push | src/lava/magma/runtime/message_infrastructure/message_infrastructure/csrc/channel/grpc_channel/grpc_channel.cc:64-74 | Appends the message when fewer than `size - 1` are queued. Silently drops it when the ring is full. |
| GrpcChannel.GrpcChannelServerImpl.AvailableCount | src/lava/magma/runtime/message_infrastructure/message_infrastructure/csrc/channel/grpc_channel/grpc_channel.cc:76-86 | Corrected: the free capacity is `size - 1` minus the queued count. It is positive exactly when `Push` would store. |
| GrpcChannel.GrpcChannelServerImpl.RecvArrayData | src/lava/magma/runtime/message_infrastructure/message_infrastructure/csrc/channel/grpc_channel/grpc_channel.cc:53-62 | The reply acks exactly when the ring had room, and then the request is appended. A nack leaves the ring unchanged. |
| GrpcChannel.GrpcChannelServerImpl.Pop | src/lava/magma/runtime/message_infrastructure/message_infrastructure/csrc/channel/grpc_channel/grpc_channel.cc:94-110 | Returns and drops the oldest message. On an empty ring a blocking pop waits, or returns a default message once stopped. |
| GrpcChannel.GrpcChannelServerImpl.Front | src/lava/magma/runtime/message_infrastructure/message_infrastructure/csrc/channel/grpc_channel/grpc_channel.cc:112-121 | Returns the oldest message without removing it. On an empty ring it waits, or returns nothing once stopped. |
| GrpcChannel.GrpcChannelServerImpl.Stop | src/lava/magma/runtime/message_infrastructure/message_infrastructure/csrc/channel/grpc_channel/grpc_channel.cc:123-125 | Marks the server stopped. |
| GrpcChannel.GrpcChannelServerImpl.Probe | src/lava/magma/runtime/message_infrastructure/message_infrastructure/csrc/channel/grpc_channel/grpc_channel.cc:127-129 | True exactly when a message is queued. |
| GrpcChannel.ReadInts | src/lava/magma/runtime/message_infrastructure/message_infrastructure/csrc/channel/grpc_channel/grpc_channel.cc:210-216 | Element `i` is the signed 32-bit integer at bytes `4i` to `4i+3` of the payload. |
| GrpcChannel.WriteInts | src/lava/magma/runtime/message_infrastructure/message_infrastructure/csrc/channel/grpc_channel/grpc_channel.cc:182-188 | Writing `n` wire values produces `4n` payload bytes. |
| GrpcChannel.WriteIntsAt | src/lava/magma/runtime/message_infrastructure/message_infrastructure/csrc/channel/grpc_channel/grpc_channel.cc:182-188 | Bytes `4i` to `4i+3` of the payload hold value `i` truncated to a C `int`. |
| GrpcChannel.ReadWriteInts | src/lava/magma/runtime/message_infrastructure/message_infrastructure/csrc/channel/grpc_channel/grpc_channel.cc:177-218 | Wire values that fit in 32 bits survive being written to payload bytes and read back. |
| GrpcChannel.WriteReadInts | src/lava/magma/runtime/message_infrastructure/message_infrastructure/csrc/channel/grpc_channel/grpc_channel.cc:177-218 | Payload bytes survive being read as integers and written back, up to the announced count. |
| GrpcChannel.ToGrpc | src/lava/magma/runtime/message_infrastructure/message_infrastructure/csrc/channel/grpc_channel/grpc_channel.cc:205-218 | The wire message carries five dims, five strides and exactly one value per announced element. Dims and strides are copied at full width. |
| GrpcChannel.FromGrpc | src/lava/magma/runtime/message_infrastructure/message_infrastructure/csrc/channel/grpc_channel/grpc_channel.cc:177-190 | The record carries five dims, five strides and four payload bytes per announced element. |
| GrpcChannel.MetaRoundTrip | src/lava/magma/runtime/message_infrastructure/message_infrastructure/csrc/channel/grpc_channel/grpc_channel.cc:177-218 | A record sent over gRPC and converted back is the same record, its payload cut to the announced elements. |
| GrpcChannel.GrpcRoundTrip | src/lava/magma/runtime/message_infrastructure/message_infrastructure/csrc/channel/grpc_channel/grpc_channel.cc:177-218 | A wire message of 32-bit values converted to a record and back is unchanged. |
| GrpcChannel.MetaData2GrpcMetaData | src/lava/magma/runtime/message_infrastructure/message_infrastructure/csrc/channel/grpc_channel/grpc_channel.cc:205-218 | The copying loops produce the conversion whose round trip is proved above. |
| GrpcChannel.GrpcMetaData2MetaData | src/lava/magma/runtime/message_infrastructure/message_infrastructure/csrc/channel/grpc_channel/grpc_channel.cc:177-190 | The copying loops produce the inverse conversion. |
| ShmemPort.MetaDataFromPointer | src/lava/magma/runtime/_c_message_infrastructure/csrc/channel/shmem/shmem_port.cc:22-38 | A slot decodes when its header announces a non-negative length. The record is that header, with as many payload bytes as announced, at most the slot's capacity. |
| ShmemPort.SlotImage | src/lava/magma/runtime/_c_message_infrastructure/csrc/channel/shmem/shmem_port.cc:64-70 | The slot after a send has the slot's size: header, payload, then the old bytes. |
| ShmemPort.SlotRoundTrip | src/lava/magma/runtime/_c_message_infrastructure/csrc/channel/shmem/shmem_port.cc:22-38 | A message that fits, written into a slot, is read back as the same record with its announced payload. |
| ShmemPort.SlotAt | src/lava/magma/runtime/_c_message_infrastructure/csrc/channel/shmem/shmem_port.cc:65 | Slot `j` is the `nbytes` bytes at offset `j * nbytes`. |
| ShmemPort.Slots | src/lava/magma/runtime/_c_message_infrastructure/csrc/channel/shmem/shmem_port.cc:65 | The segment viewed as `size` slots, each the bytes at its own offset. |
| ShmemPort.SlotsWrite | src/lava/magma/runtime/_c_message_infrastructure/csrc/channel/shmem/shmem_port.cc:64-70 | Overwriting one slot's bytes changes that slot and no other. |
| ShmemPort.MemCpy | src/lava/magma/runtime/_c_message_infrastructure/csrc/channel/shmem/shmem_port.cc:66-70 | `memcpy` replaces exactly the destination range by the source bytes. |
| ShmemPort.AfterSendSlot | src/lava/magma/runtime/_c_message_infrastructure/csrc/channel/shmem/shmem_port.cc:64-70 | When the payload fits, the two copies of `Send` rewrite only slot `j`, with the slot image of the message. |
| ShmemPort.WriteSlot | src/lava/magma/runtime/_c_message_infrastructure/csrc/channel/shmem/shmem_port.cc:64-70 | The two `memcpy`s of `Send` write the header and payload at the slot's offset and, for a fitting message, touch no other slot. |
| ShmemPort.Messages | src/lava/magma/runtime/_c_message_infrastructure/csrc/channel/shmem/shmem_port.cc:100-120 | The decoded messages of the `n` queued slots, from the reader's slot on. |
| ShmemPort.PushSlot | src/lava/magma/runtime/_c_message_infrastructure/csrc/channel/shmem/shmem_port.cc:64-72 | Writing a fitting message into the slot after the queued ones appends it to the decoded queue and keeps every queued slot decodable. |
| ShmemPort.PopSlot | src/lava/magma/runtime/_c_message_infrastructure/csrc/channel/shmem/shmem_port.cc:104-110 | The reader's slot decodes to the oldest queued message. The rest of the queue is the decoded window from the next slot. |
| ShmemPort.OversizeSendClobbersNextSlot | src/lava/magma/runtime/_c_message_infrastructure/csrc/channel/shmem/shmem_port.cc:60-70 | A two-byte payload in a one-byte slot, copied as written, changes the next slot's bytes. |
| ShmemPort.SharedMemory.constructor | src/lava/magma/runtime/_c_message_infrastructure/csrc/channel/shmem/shmem_channel.cc:16-17 | A segment of `slots` slots starts with no request and every slot acknowledged free. |
| ShmemPort.ShmemSendPort.constructor | src/lava/magma/runtime/_c_message_infrastructure/csrc/channel/shmem/shmem_port.cc:47-52 | A new send port is at slot 0 and not done. |
| ShmemPort.ShmemSendPort.Send | src/lava/magma/runtime/_c_message_infrastructure/csrc/channel/shmem/shmem_port.cc:58-73 | Corrected: an oversize message is refused and a full ring waits, both changing nothing. Otherwise the message's slot image is written at the cursor, which advances. One request is recorded and the message joins the end of the in-flight sequence. |
| ShmemPort.ShmemSendPort.Store | src/lava/magma/runtime/_c_message_infrastructure/csrc/channel/shmem/shmem_port.cc:64-72 | The `Store` step for a fitting message and a free slot: the slot image is written at the cursor, the cursor advances, one slot moves from `ack` to `req`, and the message joins the end of the in-flight sequence. |
| ShmemPort.StoreStep | src/lava/magma/runtime/_c_message_infrastructure/csrc/channel/shmem/shmem_port.cc:64-72 | One store into a free slot keeps the cursors in step with the counters and appends the message to the decoded queue. |
| ShmemPort.ShmemSendPort.Probe | src/lava/magma/runtime/_c_message_infrastructure/csrc/channel/shmem/shmem_port.cc:75-77 | The send port's probe is always false. |
| ShmemPort.ShmemSendPort.Join | src/lava/magma/runtime/_c_message_infrastructure/csrc/channel/shmem/shmem_port.cc:79-81 | `Join` marks the port done. |
| ShmemPort.InFlight | src/lava/magma/runtime/_c_message_infrastructure/csrc/channel/shmem/shmem_port.cc:58-120 | The sent, unreceived messages decoded from the segment number the request count, at most `size`. |
| ShmemPort.ShmemRecvPort.constructor | src/lava/magma/runtime/_c_message_infrastructure/csrc/channel/shmem/shmem_port.cc:83-88 | A new receive port is at slot 0 and not done. |
| ShmemPort.ShmemRecvPort.Recv | src/lava/magma/runtime/_c_message_infrastructure/csrc/channel/shmem/shmem_port.cc:100-120 | Returns the oldest in-flight message and drops it, advances the cursor and turns one request into one ack. It waits on an empty ring and returns nothing once done. |
| ShmemPort.ShmemRecvPort.Peek | src/lava/magma/runtime/_c_message_infrastructure/csrc/channel/shmem/shmem_port.cc:131-140 | As written: always an empty record, whatever is queued. |
| ShmemPort.PeekMissesQueuedMessage | src/lava/magma/runtime/_c_message_infrastructure/csrc/channel/shmem/shmem_port.cc:131-140 | After one send into an empty segment, the oldest message in flight is not the empty record, so the as-written `Peek` misses it. |
| ShmemPort.ShmemRecvPort.PeekHead | src/lava/magma/runtime/_c_message_infrastructure/csrc/channel/shmem/shmem_port.cc:131-140 | Corrected: the oldest in-flight message without consuming it, or a wait on an empty ring. |
| ShmemPort.ShmemRecvPort.Probe | src/lava/magma/runtime/_c_message_infrastructure/csrc/channel/shmem/shmem_port.cc:96-98 | True exactly when a request is pending. |
| ShmemPort.ShmemRecvPort.Join | src/lava/magma/runtime/_c_message_infrastructure/csrc/channel/shmem/shmem_port.cc:122-129 | `Join` marks the port done. |
| ShmemPort.ShmemBlockRecvPort.constructor | src/lava/magma/runtime/_c_message_infrastructure/csrc/channel/shmem/shmem_port.cc:142-145 | The single-slot reader keeps its name, segment and slot size. |
| ShmemPort.ShmemBlockRecvPort.Recv | src/lava/magma/runtime/_c_message_infrastructure/csrc/channel/shmem/shmem_port.cc:147-154 | Returns the one queued message from slot 0 and frees the slot, or waits. |
| ShmemPort.ShmemBlockRecvPort.Peek | src/lava/magma/runtime/_c_message_infrastructure/csrc/channel/shmem/shmem_port.cc:156-163 | The queued message, left in place, or a wait. |
| ShmemPort.ShmemBlockRecvPort.Probe | src/lava/magma/runtime/_c_message_infrastructure/csrc/channel/shmem/shmem_port.cc:165-167 | True exactly when a request is pending. |
| ShmemChannels.SlotSize | src/lava/magma/runtime/_c_message_infrastructure/csrc/channel/shmem/shmem_channel.cc:14 | A slot holds a whole header, and the payload capacity `Send` checks and `Recv` decodes with is exactly the requested `nbytes`. |
| ShmemChannels.ShmemChannel.constructor | src/lava/magma/runtime/_c_message_infrastructure/csrc/channel/shmem/shmem_channel.cc:10-28 | Both ports share one segment of `size` slots. The receiver is the ring reader when `size > 1` and the single-slot reader otherwise. The channel starts coherent with nothing in flight. |
| ShmemChannels.ShmemChannel.GetSendPort | src/lava/magma/runtime/_c_message_infrastructure/csrc/channel/shmem/shmem_channel.cc:30-32 | Returns the send port made at construction. |
| ShmemChannels.ShmemChannel.GetRecvPort | src/lava/magma/runtime/_c_message_infrastructure/csrc/channel/shmem/shmem_channel.cc:34-36 | Returns the receive port made at construction. |
| ShmemChannels.GetShmemChannel | src/lava/magma/runtime/_c_message_infrastructure/csrc/channel/shmem/shmem_channel.cc:38-46 | Builds the channel with reordered arguments and promises everything the constructor does: a fresh segment of `size` slots with `req = 0` and `ack = size`, a fresh sender, a receiver named `dstName` on the same segment at cursor 0 and not done, and nothing in flight. The ring reader is chosen exactly when `size > 1`. |
| ChannelBuilders.SuffixedCall | src/lava/magma/compiler/builders/channel_builder.py:101-108 | The two port names extend the initializer's name and differ from each other. The call is synchronous and keeps shape, dtype and depth. |
| ChannelBuilders.Build | src/lava/magma/compiler/builders/channel_builder.py:39-185 | The board builder makes no call and every other builder makes one. The plain builder passes both names and the source's layout with no `sync`. Service and runtime builders use suffixed, distinct names with `sync=True`. |
| ChannelBuilders.MpIgnoresDstLayout | src/lava/magma/compiler/builders/channel_builder.py:58-64 | Only the destination initializer's name reaches the channel. |
| ChannelBuilders.ServiceRuntimeAgree | src/lava/magma/compiler/builders/channel_builder.py:81-150 | A service and a runtime builder over the same initializer request the same channel. |
| GrpcUrls.Decimal | src/lava/magma/runtime/message_infrastructure/message_infrastructure/csrc/channel/grpc/grpc.h:29 | `std::to_string` of a port is a non-empty digit string, with two or more digits from 10 up. |
| GrpcUrls.DecimalInjective | src/lava/magma/runtime/message_infrastructure/message_infrastructure/csrc/channel/grpc/grpc.h:29 | Different ports are rendered differently. |
| GrpcUrls.AddressInjective | src/lava/magma/runtime/message_infrastructure/message_infrastructure/csrc/channel/grpc/grpc.h:29-33 | On one host, different ports give different addresses. |
| GrpcUrls.TriedSize | src/lava/magma/runtime/message_infrastructure/message_infrastructure/csrc/channel/grpc/grpc.h:31-34 | `n` consecutive candidate ports give `n` distinct addresses. |
| GrpcUrls.Advance | src/lava/magma/runtime/message_infrastructure/message_infrastructure/csrc/channel/grpc/grpc.h:31-34 | If `n + 1` consecutive candidates are all taken, the registry holds at least `n + 1` addresses, so the search must end. |
| GrpcUrls.GrpcManager.constructor | src/lava/magma/runtime/message_infrastructure/message_infrastructure/csrc/channel/grpc/grpc.h:43-48 | The registry starts at base `127.11.2.78`, port 8000, counter 0, with no address in use. |
| GrpcUrls.GrpcManager.CheckURL | src/lava/magma/runtime/message_infrastructure/message_infrastructure/csrc/channel/grpc/grpc.h:21-27 | Succeeds exactly when the address was free. Afterwards the address is in use either way. |
| GrpcUrls.GrpcManager.Release | src/lava/magma/runtime/message_infrastructure/message_infrastructure/csrc/channel/grpc/grpc.h:37-39 | The address is no longer in use and nothing else changes. |
| GrpcUrls.GrpcManager.AllocURL | src/lava/magma/runtime/message_infrastructure/message_infrastructure/csrc/channel/grpc/grpc.h:28-36 | Corrected: returns a previously free address, now registered. It is the first free candidate from the counter on, all skipped candidates were taken, and the counter moves past it. |
| GrpcUrls.GrpcManager.AllocURLAsWritten | src/lava/magma/runtime/message_infrastructure/message_infrastructure/csrc/channel/grpc/grpc.h:28-36 | As written: if the first candidate is taken, no number of passes returns, because the counter grows while the first candidate is re-checked. Otherwise that candidate is returned. |

## Left out

- Threads, condition variables and memory orders are not modelled. Each blocking call is one attempt, and each background thread is a step method that the caller interleaves. Timeouts, sleeps and `wait` are not modelled.
- `SharedMemory` (shm.h) is not part of this model. Its calls are modelled by assumed behaviour:
  - `Store` (shmem_port.cc:64): runs the writer when a slot is free (`ack > 0`), then moves one slot from `ack` to `req`. Written into `ShmemSendPort.Send` and `Store`.
  - `Load` (shmem_port.cc:104): runs the reader when a request is pending (`req > 0`), then moves one slot from `req` to `ack`, and reports whether it ran. Written into `ShmemRecvPort.Recv`.
  - `Peek` (shmem_port.cc:133): runs the reader without changing `req` or `ack`, so `ShmemRecvPort.PeekHead` sees the slot at the cursor. The as-written `ShmemRecvPort.Peek` returns the outer default record whatever the reader does.
  - `BlockLoad` (shmem_port.cc:149): `ShmemBlockRecvPort.Recv` models one attempt. When `req > 0` it reads slot 0 and turns the request into an ack; otherwise it reports `Pending` where the source blocks.
  - `Read` (shmem_port.cc:158): `ShmemBlockRecvPort.Peek` reads slot 0 when `req > 0` without changing the counters; otherwise it reports `Pending`.
  - `TryProbe` (shmem_port.cc:97, 166): true exactly when `req > 0`.
  - The segment's initial `req = 0`, `ack = size` is assumed the same way.
- Every port operation of the Python channel (`AckStep`, `Probe`, `Send`, `ReqStep`, `Peek`, `Recv`) requires the port to be started. Before `start()`, the source calls a method on `self._semaphore` or `self._queue`, which is still `None` (pypychannel.py:63, 121, 134), and raises `AttributeError`. A wrong-shape `send` before `start()` raises `AssertionError`; the requires excludes that case too, so these errors are not modelled.
- `Csp.SendPort.AckStep`, `Csp.RecvPort.ReqStep`: one step checks `done` and takes the semaphore together, so after `join` the model's thread takes no further signal. In the source (pypychannel.py:101-114, 252-262), a thread already blocked in `acquire` when `join` runs still handles one more signal on waking: it releases one permit or queues one marker, and may call the observer, before it sees `done`. That last step is not modelled.
- `Csp.SendPort.Send` requires the array's element count to equal the product of its shape, as every numpy array has. Arrays are not otherwise checked for well-formedness.
- `ShmemPort.ShmemRecvPort.Recv`: once `done_` is set, the source's loop exits and control falls off the end of a function returning `MetaDataPtr` (shmem_port.cc:100-119). This is undefined behaviour; the model returns `Closed`.
- The `MetaData` struct is defined in utils.h, which is not part of this model. Its layout is taken as fifteen 64-bit words (`nd`, `type`, `elsize`, `total_size`, five dims, five strides, payload pointer), and the payload pointer is not compared.
- The gRPC network side (`GrpcSendPort`, `GrpcRecvPort`, server start-up, stubs, `Send` over the wire) is not modelled. `GrpcRecvPort::Probe`'s missing return value is left out with it.
- The `.proto` definition of `GrpcMetaData` is not part of this model. Its `value` field is taken as 32-bit integers, and values are truncated to a C `int` on the way out. Its `dims` and `strides` fields are taken to be as wide as the 64-bit `MetaData` fields they are copied from, with no truncation.
- `GrpcChannel.GrpcChannelServerImpl.constructor`: `array_.reserve(size_)` does not give the vector any elements, so the source's `array_[i] = ...` writes out of range. The model takes the buffer as sized.
- `GrpcChannel.GrpcChannelServerImpl.constructor`: a ring of size 0 is excluded by its requires, because the source's index arithmetic is undefined there.
- `GrpcChannel.GrpcChannelServerImpl.Pop`: a non-blocking pop on an empty ring breaks the source's `assert`. The requires excludes it.
- `GrpcChannel.GrpcChannelServerImpl.Front`: the bare `return;` in a function returning `GrpcMetaData` is modelled as `Closed`.
- `GrpcChannel.GrpcMetaData2MetaData`: the source writes through an `mdata` pointer that it never allocates. The model produces the payload bytes instead.
- `GrpcUrls.GrpcManager.AllocURL`: `port_num_` and `base_port_` are C `int`s whose overflow is not modelled. The counter is unbounded.
- `GrpcUrls.Address`: the address is the host directly followed by the port number, with no `:`, as the source builds it.
- `ShmemPort.ShmemSendPort.Send`: requires `Len(m) >= 0`. The source compares a negative `int` length against an unsigned size, where it wraps to a large value. That case is not modelled.
- `Csp.PyPyChannel.constructor` requires `size > 0`. With depth 0 no send can ever acquire a permit, and the cursor arithmetic `% self._size` is undefined.
- The receive port's `dtype == 4` remap to `int32`, numpy element types and casting are not modelled. An array is its shape and flat integer elements; the prototype keeps the dtype only as a tag and its item size.
- `CspRecvQueue.get`'s float timeouts and its `Empty`/`ValueError` branches for non-blocking gets are not modelled. Only the blocking-peek behaviour used by `peek` is.
- The timing counters of `select` (`count`, `all_time`) are not modelled.
- The merge-conflict markers in grpc_channel.cc are not modelled. The model follows the side that compiles.
- The port-proxy selector, the DDS and socket channels, the POSIX actors and Python's `multiprocessing` managers are outside the modelled core.

## Findings

| source | as written | input that shows it | evidently intended | confidence | as-written member | corrected member |
|---|---|---|---|---|---|---|
| src/lava/magma/runtime/_c_message_infrastructure/csrc/channel/shmem/shmem_port.cc:60-72 | `Send` logs "Send data too large" and then copies the whole payload anyway | two slots of `HEADER_SIZE + 1` bytes and a message with `elsize = 1`, `total_size = 2`: the second payload byte overwrites slot 1 | refuse the oversize message and leave the segment unchanged | not executed | ShmemPort.OversizeSendClobbersNextSlot | ShmemPort.ShmemSendPort.Send |
| src/lava/magma/runtime/_c_message_infrastructure/csrc/channel/shmem/shmem_port.cc:131-140 | `Peek` declares a new local `metadata_res` inside the lambda, which shadows the outer one, so the outer default record is returned | any ring with a queued message: `Peek` returns an empty record, not that message | return the message at the reader's slot without consuming it | not executed | ShmemPort.ShmemRecvPort.Peek | ShmemPort.ShmemRecvPort.PeekHead |
| src/lava/magma/runtime/message_infrastructure/message_infrastructure/csrc/channel/grpc_channel/grpc_channel.cc:53-86 | `AvailableCount` returns `size_` on an empty ring, while `Push` can store only `size_ - 1` messages | `size_ = 1`: `AvailableCount()` is 1, `RecvArrayData` acks, and `Push` drops the message because the next write index equals the read index | ack exactly when the message is stored (free count `size_ - 1 - queued`) | not executed | GrpcChannel.AckedButDropped | GrpcChannel.GrpcChannelServerImpl.RecvArrayData |
| src/lava/magma/runtime/message_infrastructure/pypychannel.py:83-99 | `start` builds a new `BoundedSemaphore(size)` and a new `CspRecvQueue`, and launches another thread, on every call | a one-slot channel, both ports started, one item sent and not received, then the sender started again: it holds one permit while the item is unread, so its next send overwrites it | `start` is idempotent: a second call keeps the permits and markers of the first | not executed | Csp.RestartWithItemUnread | Csp.SendPort.StartOnce |
| src/lava/magma/runtime/message_infrastructure/message_infrastructure/csrc/channel/grpc/grpc.h:31-34 | the retry loop declares a new `url` that shadows the checked one, so every pass re-checks the first candidate | the first candidate `127.11.2.788000` already registered: the loop never ends | try the next candidate each pass and return the first free one | not executed | GrpcUrls.GrpcManager.AllocURLAsWritten | GrpcUrls.GrpcManager.AllocURL |

=== FILE: bytes.dfy ===
/** Bytes and fixed-width integers as they lie in memory: little-endian,
    two's complement. */
module Bytes {

  newtype byte = x: int | 0 <= x < 256

  function Pow256(n: nat): (p: nat)
    ensures p > 0
    ensures n > 0 ==> p % 2 == 0
  {
    if n == 0 then 1 else 256 * Pow256(n - 1)
  }

  /** `v` as `n` little-endian bytes. */
  function ToLE(v: nat, n: nat): (bs: seq<byte>)
    ensures |bs| == n
  {
    if n == 0 then [] else [(v % 256) as byte] + ToLE(v / 256, n - 1)
  }

  /** The unsigned value of little-endian bytes. */
  function FromLE(bs: seq<byte>): (v: nat)
    ensures v < Pow256(|bs|)
  {
    if bs == [] then 0 else bs[0] as nat + 256 * FromLE(bs[1..])
  }

  lemma {:induction false} FromLEToLE(v: nat, n: nat)
    requires v < Pow256(n)
    ensures FromLE(ToLE(v, n)) == v
  {
    if n > 0 {
      FromLEToLE(v / 256, n - 1);
    }
  }

  lemma {:induction false} ToLEFromLE(bs: seq<byte>)
    ensures ToLE(FromLE(bs), |bs|) == bs
  {
    if bs != [] {
      var v, rest := FromLE(bs), FromLE(bs[1..]);
      assert v == bs[0] as nat + 256 * rest;
      assert v % 256 == bs[0] as nat && v / 256 == rest;
      ToLEFromLE(bs[1..]);
    }
  }

  /** `x` fits a signed integer of `n` bytes. */
  predicate InRange(x: int, n: nat)
  {
    -(Pow256(n) as int) <= 2 * x < Pow256(n)
  }

  /** `x` as a signed, two's complement, little-endian integer of `n`
      bytes. */
  function EncodeInt(x: int, n: nat): (bs: seq<byte>)
    requires InRange(x, n)
    ensures |bs| == n
  {
    ToLE(if x < 0 then x + Pow256(n) else x, n)
  }

  /** The signed value of two's complement little-endian bytes. */
  function DecodeInt(bs: seq<byte>): (x: int)
    ensures InRange(x, |bs|)
  {
    var u := FromLE(bs);
    if 2 * u >= Pow256(|bs|) then u - Pow256(|bs|) else u
  }

  lemma IntRoundTrip(x: int, n: nat)
    requires InRange(x, n)
    ensures DecodeInt(EncodeInt(x, n)) == x
  {
    FromLEToLE(if x < 0 then x + Pow256(n) else x, n);
  }

  lemma BytesRoundTrip(bs: seq<byte>)
    ensures EncodeInt(DecodeInt(bs), |bs|) == bs
  {
    ToLEFromLE(bs);
  }

  /** A C `int` computed from a wider integer: the value modulo 2^32, read
      as signed. */
  function Int32(x: int): (r: int)
    ensures InRange(r, 4)
    ensures InRange(x, 4) ==> r == x
  {
    var u := x % Pow256(4);
    if 2 * u >= Pow256(4) then u - Pow256(4) else u
  }
}

=== FILE: channel_builder.dfy ===
/** The compiler's channel builders. Each builder records the ports it
    connects and, when built, asks the message infrastructure for one
    channel; the builder for the neuromorphic board builds nothing. */
module ChannelBuilders {
  import opened Ring

  datatype ChannelBackend = PYSHMEM | SHMEM | RPC | DDS | SOCKET

  /** The channel type tag; its values are defined outside this model. */
  datatype ChannelType = ChannelType(tag: nat)

  /** The fields of a `PortInitializer` that the builders read. */
  datatype PortInitializer = PortInitializer(name: string, shape: seq<int>, dType: nat, size: nat)

  /** The arguments of one `messaging_infrastructure.channel(...)` call;
      `sync` is `None` when the keyword is not passed. */
  datatype ChannelCall = ChannelCall(channelType: ChannelType, backend: ChannelBackend,
                                     srcName: string, dstName: string,
                                     shape: seq<int>, dType: nat, size: nat, sync: Option<bool>)

  datatype ChannelBuilder =
    | ChannelBuilderMp(channelType: ChannelType, srcInit: PortInitializer, dstInit: PortInitializer,
                       backend: ChannelBackend)
    | ServiceChannelBuilderMp(channelType: ChannelType, init: PortInitializer, backend: ChannelBackend)
    | RuntimeChannelBuilderMp(channelType: ChannelType, init: PortInitializer, backend: ChannelBackend)
    | ChannelBuilderNx(channelType: ChannelType, srcInit: PortInitializer, dstInit: PortInitializer,
                       nxBackend: Option<ChannelBackend>)

  const SRC_SUFFIX: string := "_src"
  const DST_SUFFIX: string := "_dst"

  /** The call that `build` makes for a service or runtime channel: the
      initializer's name with a suffix for each port, and `sync=True`. */
  function SuffixedCall(t: ChannelType, init: PortInitializer, backend: ChannelBackend): (c: ChannelCall)
    ensures c.srcName != c.dstName
    ensures init.name <= c.srcName && init.name <= c.dstName
    ensures c.shape == init.shape && c.dType == init.dType && c.size == init.size
    ensures c.sync == Some(true) && c.channelType == t && c.backend == backend
  {
    var c := ChannelCall(t, backend, init.name + SRC_SUFFIX, init.name + DST_SUFFIX,
                         init.shape, init.dType, init.size, Some(true));
    assert c.srcName[|init.name| + 1] != c.dstName[|init.name| + 1];
    c
  }

  /** `build`: the one infrastructure call made, or none. The result of
      `build` is that call's result, unchanged, and `None` for the board
      builder. */
  function Build(b: ChannelBuilder): (r: Option<ChannelCall>)
    ensures r.None? <==> b.ChannelBuilderNx?
    ensures b.ChannelBuilderMp? ==>
              && r.value.srcName == b.srcInit.name && r.value.dstName == b.dstInit.name
              && r.value.shape == b.srcInit.shape && r.value.dType == b.srcInit.dType
              && r.value.size == b.srcInit.size && r.value.sync.None? && r.value.backend == b.backend
    ensures r.Some? ==> r.value.channelType == b.channelType
    ensures (b.ServiceChannelBuilderMp? || b.RuntimeChannelBuilderMp?) ==>
              && r.value.srcName != r.value.dstName && r.value.sync == Some(true) && r.value.backend == b.backend
              && b.init.name <= r.value.srcName && b.init.name <= r.value.dstName
  {
    match b
    case ChannelBuilderMp(t, src, dst, backend) =>
      Some(ChannelCall(t, backend, src.name, dst.name, src.shape, src.dType, src.size, None))
    case ServiceChannelBuilderMp(t, init, backend) => Some(SuffixedCall(t, init, backend))
    case RuntimeChannelBuilderMp(t, init, backend) => Some(SuffixedCall(t, init, backend))
    case ChannelBuilderNx(_, _, _, _) => None
  }

  /** Only the destination initializer's name reaches the channel: its
      shape, type and depth are ignored. */
  lemma MpIgnoresDstLayout(t: ChannelType, src: PortInitializer, dst: PortInitializer,
                            dst': PortInitializer, backend: ChannelBackend)
    requires dst.name == dst'.name
    ensures Build(ChannelBuilderMp(t, src, dst, backend)) == Build(ChannelBuilderMp(t, src, dst', backend))
  {
  }

  /** A service and a runtime builder over the same initializer ask for the
      same channel. */
  lemma ServiceRuntimeAgree(t: ChannelType, init: PortInitializer, backend: ChannelBackend)
    ensures Build(ServiceChannelBuilderMp(t, init, backend)) == Build(RuntimeChannelBuilderMp(t, init, backend))
  {
  }
}

=== FILE: grpc_channel.dfy ===
/** The gRPC transport: the receiving server's ring buffer of
    `GrpcMetaData` messages, and the field-by-field conversions between the
    native `MetaData` record and the `GrpcMetaData` wire message. The server
    runs `RecvArrayData` for each message a sender pushes over the network;
    the receive port pops from the same buffer. */
module GrpcChannel {
  import opened Ring
  import opened Bytes
  import opened Meta

  /** The `GrpcMetaData` protobuf message; `dims`, `strides` and `value`
      are repeated fields. The `.proto` file is not part of this model:
      `value` is taken to hold 32-bit integers, and `dims` and `strides`
      to be as wide as the `MetaData` fields they are copied from. */
  datatype GrpcMetaData = GrpcMetaData(nd: int, dtype: int, elsize: int, totalSize: int,
                                       dims: seq<int>, strides: seq<int>, value: seq<int>)

  /** A default-constructed message: every scalar 0, every repeated field
      empty. */
  function EmptyGrpc(): (g: GrpcMetaData)
    ensures g.dims == [] && g.strides == [] && g.value == []
  {
    GrpcMetaData(0, 0, 0, 0, [], [], [])
  }

  // ---------------------------------------------------------------------
  // The server ring buffer

  /** Items held between read cursor `r` and write cursor `w`. */
  function Occupied(size: nat, r: nat, w: nat): (n: nat)
    requires r < size && w < size
    ensures n < size
    ensures Slot(r, n, size) == w
  {
    if w >= r then w - r else size - r + w
  }

  /** The write cursor reached after `k` pushes from an empty buffer at `r`
      is `k` items away from `r`. */
  lemma OccupiedSlot(size: nat, r: nat, k: nat)
    requires r < size && k < size
    ensures Occupied(size, r, Slot(r, k, size)) == k
  {
  }

  /** The next write slot is free exactly when fewer than `size - 1` items
      are held. */
  lemma NextFree(size: nat, r: nat, w: nat)
    requires r < size && w < size
    ensures Next(w, size) != r <==> Occupied(size, r, w) < size - 1
  {
    var n := Occupied(size, r, w);
    SlotStep(r, n, size);
    if n + 1 < size {
      SlotInjective(r, 0, n + 1, size);
    }
  }

  /** `AvailableCount` as the source computes it: an empty buffer reports
      all `size` slots as free, although a push can fill at most
      `size - 1`. */
  function AvailableAsWritten(size: nat, r: nat, w: nat): (n: int)
    requires r < size && w < size
    ensures r != w ==> n == size - 1 - Occupied(size, r, w)
    ensures r == w ==> n == size
  {
    if r == w then size else if w > r then size - w + r - 1 else r - w - 1
  }

  /** With two slots or more, the count as written is positive exactly when
      the next push stores its item. */
  lemma AvailableAsWrittenSound(size: nat, r: nat, w: nat)
    requires 2 <= size && r < size && w < size
    ensures AvailableAsWritten(size, r, w) > 0 <==> Next(w, size) != r
  {
    NextFree(size, r, w);
  }

  /** With one slot, the count as written reports a free slot on the empty
      buffer, so `RecvArrayData` acknowledges the message, yet `Push` finds
      the next write cursor equal to the read cursor and drops it. */
  lemma AckedButDropped()
    ensures AvailableAsWritten(1, 0, 0) > 0 && Next(0, 1) == 0
    ensures Occupied(1, 0, 0) == 0
  {
  }

  class GrpcChannelServerImpl {
    const name: string
    const size: nat
    const nbytes: nat
    /** `array_`: `size` slots. */
    const slots: array<GrpcMetaData>
    var readIndex: nat
    var writeIndex: nat
    var done: bool

    ghost predicate Valid()
      reads this
    {
      size > 0 && slots.Length == size && readIndex < size && writeIndex < size
    }

    /** The messages held, oldest first. */
    ghost function Contents(): (c: seq<GrpcMetaData>)
      requires Valid()
      reads this, slots
      ensures |c| < size
    {
      Window(slots[..], readIndex, Occupied(size, readIndex, writeIndex))
    }

    /** A fresh server holds nothing and is not stopped. */
    constructor (name: string, size: nat, nbytes: nat)
      requires size > 0
      ensures Valid() && Contents() == [] && !done
      ensures this.name == name && this.size == size && this.nbytes == nbytes
      ensures readIndex == 0 && writeIndex == 0
      ensures fresh(slots)
    {
      this.name, this.size, this.nbytes := name, size, nbytes;
      slots := new GrpcMetaData[size](_ => EmptyGrpc());
      readIndex, writeIndex, done := 0, 0, false;
    }

    /** `Empty`: the cursors meet. */
    method Empty() returns (r: bool)
      requires Valid()
      ensures r <==> Contents() == []
    {
      r := readIndex == writeIndex;
    }

    /** `Push`: store at the write cursor and advance it, wrapping to 0 at
        `size`, unless that would make it meet the read cursor; a full
        buffer silently keeps its contents. */
    method Push(src: GrpcMetaData)
      requires Valid()
      modifies this`writeIndex, slots
      ensures Valid()
      ensures |old(Contents())| < size - 1 ==> Contents() == old(Contents()) + [src]
      ensures |old(Contents())| == size - 1 ==> Contents() == old(Contents()) && writeIndex == old(writeIndex)
    {
      ghost var n := Occupied(size, readIndex, writeIndex);
      NextFree(size, readIndex, writeIndex);
      SlotStep(readIndex, n, size);
      var next := writeIndex + 1;
      if next == size {
        next := 0;
      }
      if next != readIndex {
        WindowPush(slots[..], readIndex, n, src);
        OccupiedSlot(size, readIndex, n + 1);
        slots[writeIndex] := src;
        writeIndex := next;
      }
    }

    /** `AvailableCount`, corrected: the free slots a push can still fill,
        which is `size - 1` on an empty buffer (see the findings of
        README.md for the source's `size`). */
    method AvailableCount() returns (n: int)
      requires Valid()
      ensures n == size - 1 - |Contents()|
      ensures n > 0 <==> Next(writeIndex, size) != readIndex
    {
      NextFree(size, readIndex, writeIndex);
      if readIndex == writeIndex {
        return size - 1;
      }
      if writeIndex > readIndex {
        return size - writeIndex + readIndex - 1;
      }
      return readIndex - writeIndex - 1;
    }

    /** `RecvArrayData`: push the request when a slot is free, and
        acknowledge exactly when it was stored. */
    method RecvArrayData(request: GrpcMetaData) returns (ack: bool)
      requires Valid()
      modifies this`writeIndex, slots
      ensures Valid()
      ensures ack <==> |old(Contents())| < size - 1
      ensures Contents() == if ack then old(Contents()) + [request] else old(Contents())
    {
      ack := false;
      var free := AvailableCount();
      if free > 0 {
        Push(request);
        ack := true;
      }
    }

    /** One pass of `Pop`. On a non-empty buffer it returns the oldest
        message and advances the read cursor. A blocking `Pop` on an empty
        buffer sleeps and retries, or returns a default message once the
        server is stopped; a non-blocking one on an empty buffer breaks the
        source's assertion, so it is not allowed. */
    method Pop(block: bool) returns (r: Poll<GrpcMetaData>)
      requires Valid()
      requires block || readIndex != writeIndex
      modifies this`readIndex
      ensures Valid()
      ensures old(Contents()) != [] ==> r == Ready(old(Contents())[0]) && Contents() == old(Contents())[1..]
      ensures old(Contents()) == [] ==>
                readIndex == old(readIndex) && r == (if done then Ready(EmptyGrpc()) else Pending)
    {
      if readIndex == writeIndex {
        if done {
          return Ready(EmptyGrpc());
        }
        return Pending;
      }
      ghost var n := Occupied(size, readIndex, writeIndex);
      WindowPop(slots[..], readIndex, n);
      SlotStep(readIndex, n - 1, size);
      OccupiedSlot(size, Next(readIndex, size), n - 1);
      r := Ready(slots[readIndex]);
      var next := readIndex + 1;
      if next == size {
        next := 0;
      }
      readIndex := next;
    }

    /** One pass of `Front`: the oldest message, left in place. On an empty
        buffer it sleeps and retries, or returns no value once the server
        is stopped. */
    method Front() returns (r: Poll<GrpcMetaData>)
      requires Valid()
      ensures r == if Contents() != [] then Ready(Contents()[0]) else if done then Closed else Pending
    {
      if readIndex == writeIndex {
        if done {
          return Closed;
        }
        return Pending;
      }
      r := Ready(slots[readIndex]);
    }

    method Stop()
      modifies this`done
      ensures done
    {
      done := true;
    }

    /** `Probe`: a message is waiting. */
    method Probe() returns (r: bool)
      requires Valid()
      ensures r <==> Contents() != []
    {
      var e := Empty();
      r := !e;
    }
  }

  // ---------------------------------------------------------------------
  // MetaData <-> GrpcMetaData

  /** The number of payload integers a loop `for (i = 0; i < total; i++)`
      visits. */
  function Count(total: int): nat
  {
    if total < 0 then 0 else total
  }

  /** The first `n` 32-bit integers stored in `bs`. */
  function ReadInts(bs: seq<byte>, n: nat): (vs: seq<int>)
    requires 4 * n <= |bs|
    ensures |vs| == n
    ensures forall i :: 0 <= i < n ==> vs[i] == DecodeInt(bs[4 * i..4 * i + 4])
  {
    seq(n, i requires 0 <= i < n => DecodeInt(bs[4 * i..4 * i + 4]))
  }

  /** Integers stored one after the other as 32-bit words. */
  function WriteInts(vs: seq<int>): (bs: seq<byte>)
    ensures |bs| == 4 * |vs|
  {
    if vs == [] then [] else WriteInts(vs[..|vs| - 1]) + EncodeInt(Int32(vs[|vs| - 1]), 4)
  }

  lemma {:induction false} WriteIntsAt(vs: seq<int>, i: nat)
    requires i < |vs|
    ensures WriteInts(vs)[4 * i..4 * i + 4] == EncodeInt(Int32(vs[i]), 4)
  {
    var k := |vs| - 1;
    if i < k {
      WriteIntsAt(vs[..k], i);
      assert WriteInts(vs)[4 * i..4 * i + 4] == WriteInts(vs[..k])[4 * i..4 * i + 4];
    }
  }

  /** Reading back integers that fit 32 bits gives them back. */
  lemma ReadWriteInts(vs: seq<int>)
    requires forall i :: 0 <= i < |vs| ==> InRange(vs[i], 4)
    ensures ReadInts(WriteInts(vs), |vs|) == vs
  {
    forall i | 0 <= i < |vs| ensures ReadInts(WriteInts(vs), |vs|)[i] == vs[i] {
      WriteIntsAt(vs, i);
      IntRoundTrip(vs[i], 4);
    }
  }

  /** Writing back the integers read from `bs` gives back its first `4 * n`
      bytes. */
  lemma {:induction false} WriteReadInts(bs: seq<byte>, n: nat)
    requires 4 * n <= |bs|
    ensures WriteInts(ReadInts(bs, n)) == bs[..4 * n]
  {
    if n > 0 {
      var vs := ReadInts(bs, n);
      assert vs[..n - 1] == ReadInts(bs, n - 1);
      WriteReadInts(bs, n - 1);
      BytesRoundTrip(bs[4 * (n - 1)..4 * n]);
      assert bs[..4 * n] == bs[..4 * (n - 1)] + bs[4 * (n - 1)..4 * n];
    }
  }

  /** `MetaData2GrpcMetaData` into a fresh message: the scalars, the
      `MAX_ARRAY_DIMS` dims and strides, and `total_size` integers read
      from the payload. */
  function ToGrpc(m: MetaData): (g: GrpcMetaData)
    requires |m.dims| >= MAX_ARRAY_DIMS && |m.strides| >= MAX_ARRAY_DIMS
    requires 4 * Count(m.totalSize) <= |m.mdata|
    ensures |g.dims| == |g.strides| == MAX_ARRAY_DIMS && |g.value| == Count(g.totalSize)
  {
    GrpcMetaData(m.nd, m.dtype, m.elsize, m.totalSize, m.dims[..MAX_ARRAY_DIMS],
                 m.strides[..MAX_ARRAY_DIMS], ReadInts(m.mdata, Count(m.totalSize)))
  }

  /** `GrpcMetaData2MetaData` into a value-initialised record: the scalars,
      the dims and strides, and `total_size` integers written as the
      payload. */
  function FromGrpc(g: GrpcMetaData): (m: MetaData)
    requires |g.dims| >= MAX_ARRAY_DIMS && |g.strides| >= MAX_ARRAY_DIMS
    requires Count(g.totalSize) <= |g.value|
    ensures |m.dims| == |m.strides| == MAX_ARRAY_DIMS && |m.mdata| == 4 * Count(m.totalSize)
  {
    MetaData(g.nd, g.dtype, g.elsize, g.totalSize, g.dims[..MAX_ARRAY_DIMS],
             g.strides[..MAX_ARRAY_DIMS], WriteInts(g.value[..Count(g.totalSize)]))
  }

  /** A record sent over gRPC arrives with every header field and the first
      `total_size` 32-bit payload integers. */
  lemma MetaRoundTrip(m: MetaData)
    requires WellFormed(m) && 4 * Count(m.totalSize) <= |m.mdata|
    ensures FromGrpc(ToGrpc(m)) == m.(mdata := m.mdata[..4 * Count(m.totalSize)])
  {
    var c := Count(m.totalSize);
    WriteReadInts(m.mdata, c);
    assert ReadInts(m.mdata, c)[..c] == ReadInts(m.mdata, c);
    assert m.dims[..MAX_ARRAY_DIMS] == m.dims && m.strides[..MAX_ARRAY_DIMS] == m.strides;
  }

  /** A message converted to a record and back is unchanged, when it has
      `MAX_ARRAY_DIMS` dims and strides and `total_size` 32-bit values. */
  lemma GrpcRoundTrip(g: GrpcMetaData)
    requires |g.dims| == |g.strides| == MAX_ARRAY_DIMS && |g.value| == Count(g.totalSize)
    requires forall i :: 0 <= i < |g.value| ==> InRange(g.value[i], 4)
    ensures ToGrpc(FromGrpc(g)) == g
  {
    assert g.value[..Count(g.totalSize)] == g.value;
    ReadWriteInts(g.value);
  }

  /** The sender's field-copy loops, appending to a fresh message. */
  method MetaData2GrpcMetaData(m: MetaData) returns (g: GrpcMetaData)
    requires |m.dims| >= MAX_ARRAY_DIMS && |m.strides| >= MAX_ARRAY_DIMS
    requires 4 * Count(m.totalSize) <= |m.mdata|
    ensures g == ToGrpc(m)
  {
    g := EmptyGrpc().(nd := m.nd, dtype := m.dtype, elsize := m.elsize, totalSize := m.totalSize);
    var i := 0;
    while i < MAX_ARRAY_DIMS
      invariant 0 <= i <= MAX_ARRAY_DIMS
      invariant g.dims == m.dims[..i] && g.strides == m.strides[..i] && g.value == []
      invariant g.nd == m.nd && g.dtype == m.dtype && g.elsize == m.elsize && g.totalSize == m.totalSize
    {
      g := g.(dims := g.dims + [m.dims[i]], strides := g.strides + [m.strides[i]]);
      i := i + 1;
    }
    i := 0;
    while i < g.totalSize
      invariant 0 <= i <= Count(m.totalSize)
      invariant g.dims == m.dims[..MAX_ARRAY_DIMS] && g.strides == m.strides[..MAX_ARRAY_DIMS]
      invariant g.nd == m.nd && g.dtype == m.dtype && g.elsize == m.elsize && g.totalSize == m.totalSize
      invariant g.value == ReadInts(m.mdata, i)
    {
      g := g.(value := g.value + [DecodeInt(m.mdata[4 * i..4 * i + 4])]);
      i := i + 1;
    }
  }

  /** The receiver's field-copy loops into a value-initialised record,
      writing one 32-bit word of payload per value. */
  method GrpcMetaData2MetaData(g: GrpcMetaData) returns (m: MetaData)
    requires |g.dims| >= MAX_ARRAY_DIMS && |g.strides| >= MAX_ARRAY_DIMS
    requires Count(g.totalSize) <= |g.value|
    ensures m == FromGrpc(g)
  {
    m := EmptyMeta().(nd := g.nd, dtype := g.dtype, elsize := g.elsize, totalSize := g.totalSize);
    var i := 0;
    while i < MAX_ARRAY_DIMS
      invariant 0 <= i <= MAX_ARRAY_DIMS
      invariant |m.dims| == |m.strides| == MAX_ARRAY_DIMS && m.mdata == []
      invariant forall k :: 0 <= k < i ==> m.dims[k] == g.dims[k] && m.strides[k] == g.strides[k]
      invariant m.nd == g.nd && m.dtype == g.dtype && m.elsize == g.elsize && m.totalSize == g.totalSize
    {
      m := m.(dims := m.dims[i := g.dims[i]], strides := m.strides[i := g.strides[i]]);
      i := i + 1;
    }
    assert m.dims == g.dims[..MAX_ARRAY_DIMS] && m.strides == g.strides[..MAX_ARRAY_DIMS];
    i := 0;
    while i < g.totalSize
      invariant 0 <= i <= Count(g.totalSize)
      invariant m.dims == g.dims[..MAX_ARRAY_DIMS] && m.strides == g.strides[..MAX_ARRAY_DIMS]
      invariant m.nd == g.nd && m.dtype == g.dtype && m.elsize == g.elsize && m.totalSize == g.totalSize
      invariant m.mdata == WriteInts(g.value[..i])
    {
      assert g.value[..i + 1][..i] == g.value[..i];
      m := m.(mdata := m.mdata + EncodeInt(Int32(g.value[i]), 4));
      i := i + 1;
    }
  }
}

=== FILE: grpc_manager.dfy ===
/** The process-wide registry of gRPC addresses: a set of addresses in use
    and a counter that numbers the next candidate port. */
module GrpcUrls {
  import opened Ring

  const BASE_URL: string := "127.11.2.78"
  const BASE_PORT: nat := 8000

  function Digit(d: nat): (c: char)
    requires d < 10
  {
    ('0' as int + d) as char
  }

  /** `std::to_string` of a non-negative number: its decimal digits, most
      significant first, without leading zeros. */
  function Decimal(n: nat): (s: string)
    ensures |s| >= 1
    ensures n >= 10 ==> |s| >= 2
    decreases n
  {
    if n < 10 then [Digit(n)] else Decimal(n / 10) + [Digit(n % 10)]
  }

  /** Different numbers have different decimal renderings. */
  lemma {:induction false} DecimalInjective(a: nat, b: nat)
    requires Decimal(a) == Decimal(b)
    ensures a == b
    decreases a
  {
    if a >= 10 && b >= 10 {
      var da, db := Decimal(a), Decimal(b);
      assert da[|da| - 1] == Digit(a % 10) && db[|db| - 1] == Digit(b % 10);
      assert da[..|da| - 1] == Decimal(a / 10) && db[..|db| - 1] == Decimal(b / 10);
      DecimalInjective(a / 10, b / 10);
    }
  }

  /** The address rendered for `port` on `host`: the host immediately
      followed by the decimal port number, with no separator. */
  function Address(host: string, port: nat): string
  {
    host + Decimal(port)
  }

  /** Different ports give different addresses on the same host. */
  lemma AddressInjective(host: string, p: nat, q: nat)
    requires Address(host, p) == Address(host, q)
    ensures p == q
  {
    assert Address(host, p)[|host|..] == Decimal(p);
    assert Address(host, q)[|host|..] == Decimal(q);
    DecimalInjective(p, q);
  }

  /** The addresses of ports `first` to `first + n - 1`. */
  ghost function Tried(host: string, first: nat, n: nat): set<string>
    decreases n
  {
    if n == 0 then {} else Tried(host, first, n - 1) + {Address(host, first + n - 1)}
  }

  /** When every port in the range has its address in `used`, all the
      range's addresses are in `used`. */
  lemma {:induction false} TriedWithin(used: set<string>, host: string, first: nat, n: nat)
    requires forall p :: first <= p < first + n ==> Address(host, p) in used
    ensures Tried(host, first, n) <= used
    decreases n
  {
    if n > 0 {
      TriedWithin(used, host, first, n - 1);
    }
  }

  /** The address of a later port is none of the earlier ones. */
  lemma {:induction false} NotTried(host: string, first: nat, n: nat, p: nat)
    requires first + n <= p
    ensures Address(host, p) !in Tried(host, first, n)
    decreases n
  {
    if n > 0 {
      NotTried(host, first, n - 1, p);
      if Address(host, first + n - 1) == Address(host, p) {
        AddressInjective(host, first + n - 1, p);
      }
    }
  }

  /** The `n` addresses are all different. */
  lemma {:induction false} TriedSize(host: string, first: nat, n: nat)
    ensures |Tried(host, first, n)| == n
    decreases n
  {
    if n > 0 {
      TriedSize(host, first, n - 1);
      NotTried(host, first, n - 1, first + n - 1);
    }
  }

  lemma SubsetSize<T>(a: set<T>, b: set<T>)
    requires a <= b
    ensures |a| <= |b|
  {
    assert b == a + (b - a);
  }

  /** When the addresses of `n + 1` consecutive ports are all taken,
      `used` holds at least `n + 1` addresses. */
  lemma Advance(used: set<string>, host: string, first: nat, n: nat)
    requires forall p :: first <= p <= first + n ==> Address(host, p) in used
    ensures n + 1 <= |used|
  {
    TriedWithin(used, host, first, n + 1);
    TriedSize(host, first, n + 1);
    SubsetSize(Tried(host, first, n + 1), used);
  }

  class GrpcManager {
    /** `base_url_`. */
    const baseUrl: string
    /** `base_port_`. */
    const basePort: nat
    /** `url_set_`. */
    var urlSet: set<string>
    /** `port_num_`. */
    var portNum: nat

    /** A fresh registry: nothing in use, counter at 0. */
    constructor ()
      ensures baseUrl == BASE_URL && basePort == BASE_PORT
      ensures urlSet == {} && portNum == 0
    {
      baseUrl, basePort := BASE_URL, BASE_PORT;
      urlSet, portNum := {}, 0;
    }

    /** The address tried for counter value `k`. */
    function Candidate(k: nat): string
    {
      Address(baseUrl, basePort + k)
    }

    /** `CheckURL`: claim `url` if it is free. */
    method CheckURL(url: string) returns (ok: bool)
      modifies this`urlSet
      ensures ok <==> url !in old(urlSet)
      ensures urlSet == old(urlSet) + {url}
    {
      if url in urlSet {
        return false;
      }
      urlSet := urlSet + {url};
      return true;
    }

    /** `Release`: give `url` back, so a later `CheckURL` of it succeeds. */
    method Release(url: string)
      modifies this`urlSet
      ensures urlSet == old(urlSet) - {url}
      ensures url !in urlSet
    {
      urlSet := urlSet - {url};
    }

    /** `AllocURL` as evidently intended: try the candidate of each counter
        value in turn and claim the first free one. It terminates because
        the registry is finite and the candidates are all different. */
    method AllocURL() returns (url: string)
      modifies this`urlSet, this`portNum
      ensures url !in old(urlSet) && urlSet == old(urlSet) + {url}
      ensures portNum > old(portNum) && url == Candidate(portNum - 1)
      ensures forall k :: old(portNum) <= k < portNum - 1 ==> Candidate(k) in old(urlSet)
      ensures Candidate(old(portNum)) !in old(urlSet) ==> portNum == old(portNum) + 1
    {
      ghost var used := urlSet;
      var start := portNum;
      url := Candidate(portNum);
      portNum := portNum + 1;
      var ok := CheckURL(url);
      ghost var n := 0;
      while !ok
        invariant portNum == start + n + 1 && url == Candidate(start + n)
        invariant ok ==> urlSet == used + {url} && url !in used
        invariant !ok ==> urlSet == used && url in used
        invariant forall k :: start <= k < start + n ==> Candidate(k) in used
        invariant n <= |used|
        decreases |used| - n
      {
        forall p | basePort + start <= p <= basePort + start + n
          ensures Address(baseUrl, p) in used
        {
          assert Address(baseUrl, p) == Candidate(p - basePort);
        }
        Advance(used, baseUrl, basePort + start, n);
        n := n + 1;
        url := Candidate(portNum);
        portNum := portNum + 1;
        ok := CheckURL(url);
      }
    }

    /** `AllocURL` as written, for at most `fuel` passes of its retry loop:
        the loop body renders the next candidate into a new local that
        shadows `url`, so every pass re-checks the first candidate. When
        that one is taken, no number of passes returns. */
    method AllocURLAsWritten(fuel: nat) returns (r: Option<string>)
      modifies this`urlSet, this`portNum
      ensures Candidate(old(portNum)) in old(urlSet) ==>
                r == None && urlSet == old(urlSet) && portNum == old(portNum) + 1 + fuel
      ensures Candidate(old(portNum)) !in old(urlSet) ==>
                r == Some(Candidate(old(portNum))) && urlSet == old(urlSet) + {Candidate(old(portNum))}
                && portNum == old(portNum) + 1
    {
      var url := Candidate(portNum);
      portNum := portNum + 1;
      var passes := 0;
      var ok := CheckURL(url);
      while !ok && passes < fuel
        invariant 0 <= passes <= fuel && url == Candidate(old(portNum))
        invariant portNum == old(portNum) + 1 + passes
        invariant urlSet == old(urlSet) + {url}
        invariant ok <==> url !in old(urlSet)
        invariant ok ==> passes == 0
      {
        var shadow := Candidate(portNum);
        portNum := portNum + 1;
        ok := CheckURL(url);
        passes := passes + 1;
      }
      r := if ok then Some(url) else None;
    }
  }
}

=== FILE: metadata.dfy ===
/** The `MetaData` record that the native ports move: array rank, element
    type, element size, element count, per-dimension sizes and strides, and
    the payload bytes; and the byte image of its header as the shared-memory
    ports copy it. The struct is declared in utils.h, which is not part of
    this model: the header is taken to be 64-bit words in declaration order
    (nd, type, elsize, total_size, MAX_ARRAY_DIMS dims, MAX_ARRAY_DIMS
    strides, payload pointer). */
module Meta {
  import opened Bytes

  const MAX_ARRAY_DIMS: nat := 5
  const WORD: nat := 8
  const HEADER_WORDS: nat := 4 + 2 * MAX_ARRAY_DIMS + 1
  /** `sizeof(MetaData)`. */
  const HEADER_SIZE: nat := HEADER_WORDS * WORD

  /** The payload pointer `mdata` is represented by the bytes it points to. */
  datatype MetaData = MetaData(nd: int, dtype: int, elsize: int, totalSize: int,
                               dims: seq<int>, strides: seq<int>, mdata: seq<byte>)

  predicate Int64(x: int)
  {
    InRange(x, WORD)
  }

  /** Every field fits its C type and the dimension arrays have their fixed
      length. */
  predicate WellFormed(m: MetaData)
  {
    && Int64(m.nd) && Int64(m.dtype) && Int64(m.elsize) && Int64(m.totalSize)
    && |m.dims| == MAX_ARRAY_DIMS && |m.strides| == MAX_ARRAY_DIMS
    && (forall i :: 0 <= i < MAX_ARRAY_DIMS ==> Int64(m.dims[i]) && Int64(m.strides[i]))
  }

  /** A value-initialised `MetaData`: every field zero, no payload. */
  function EmptyMeta(): (m: MetaData)
    ensures WellFormed(m) && m.mdata == []
  {
    MetaData(0, 0, 0, 0, seq(MAX_ARRAY_DIMS, _ => 0), seq(MAX_ARRAY_DIMS, _ => 0), [])
  }

  /** `elsize * total_size` as the ports compute it, into a C `int`. */
  function Len(m: MetaData): int
  {
    Int32(m.elsize * m.totalSize)
  }

  /** The header words in declaration order; the pointer word is written as
      0 since addresses are not modelled. */
  function HeaderWords(m: MetaData): (ws: seq<int>)
    requires WellFormed(m)
    ensures |ws| == HEADER_WORDS
    ensures forall i :: 0 <= i < |ws| ==> Int64(ws[i])
  {
    [m.nd, m.dtype, m.elsize, m.totalSize] + m.dims + m.strides + [0]
  }

  function EncodeWords(ws: seq<int>): (bs: seq<byte>)
    requires forall i :: 0 <= i < |ws| ==> Int64(ws[i])
    ensures |bs| == WORD * |ws|
  {
    if ws == [] then [] else assert Int64(ws[0]); EncodeInt(ws[0], WORD) + EncodeWords(ws[1..])
  }

  function DecodeWords(bs: seq<byte>): (ws: seq<int>)
    requires |bs| % WORD == 0
    ensures |ws| == |bs| / WORD
    ensures forall i :: 0 <= i < |ws| ==> Int64(ws[i])
  {
    if bs == [] then [] else [DecodeInt(bs[..WORD])] + DecodeWords(bs[WORD..])
  }

  lemma {:induction false} WordsRoundTrip(ws: seq<int>)
    requires forall i :: 0 <= i < |ws| ==> Int64(ws[i])
    ensures DecodeWords(EncodeWords(ws)) == ws
  {
    if ws != [] {
      var bs := EncodeWords(ws);
      assert bs[..WORD] == EncodeInt(ws[0], WORD);
      assert bs[WORD..] == EncodeWords(ws[1..]);
      IntRoundTrip(ws[0], WORD);
      WordsRoundTrip(ws[1..]);
    }
  }

  /** The `sizeof(MetaData)` bytes that `memcpy` copies out of a header. */
  function EncodeHeader(m: MetaData): (bs: seq<byte>)
    requires WellFormed(m)
    ensures |bs| == HEADER_SIZE
  {
    EncodeWords(HeaderWords(m))
  }

  /** A header read back from `sizeof(MetaData)` bytes; the payload is
      filled in separately. */
  function DecodeHeader(bs: seq<byte>): (m: MetaData)
    requires |bs| == HEADER_SIZE
    ensures WellFormed(m) && m.mdata == []
  {
    var ws := DecodeWords(bs);
    MetaData(ws[0], ws[1], ws[2], ws[3],
             ws[4..4 + MAX_ARRAY_DIMS], ws[4 + MAX_ARRAY_DIMS..4 + 2 * MAX_ARRAY_DIMS], [])
  }

  /** Copying a header out and back in preserves every field but the
      payload pointer. */
  lemma HeaderRoundTrip(m: MetaData)
    requires WellFormed(m)
    ensures DecodeHeader(EncodeHeader(m)) == m.(mdata := [])
  {
    var ws := HeaderWords(m);
    WordsRoundTrip(ws);
    assert ws[4..4 + MAX_ARRAY_DIMS] == m.dims;
    assert ws[4 + MAX_ARRAY_DIMS..4 + 2 * MAX_ARRAY_DIMS] == m.strides;
  }
}

=== FILE: pypychannel.dfy ===
/** The pure-Python CSP channel: a send port and a receive port sharing a
    ring of `size` slots in one shared-memory segment, a `req` semaphore
    (slots filled) and an `ack` semaphore (slots freed). The sender's
    bounded permit semaphore and the receiver's marker queue are fields of
    the ports; the two background threads become the step methods
    `SendPort.AckStep` and `RecvPort.ReqStep`, which a caller may interleave
    with the other calls in any order. A blocking call that would wait
    returns without changing anything. */
module Csp {
  import opened Ring

  /** A numpy element type: an opaque tag and its item size in bytes. */
  datatype DType = DType(tag: nat, itemsize: nat)

  /** A data item: its shape and its elements in row-major order. Element
      values are abstract integers. */
  datatype NdArray = NdArray(shape: seq<int>, elems: seq<int>)

  /** What both ports of one channel know about its items. */
  datatype Proto = Proto(shape: seq<int>, dtype: DType, nbytes: int)

  datatype SendResult = ShapeMismatch | Blocked | Sent

  /** One iteration of a background callback thread: the thread has left
      its loop (`Exited`), is waiting on its semaphore (`Waiting`), or has
      translated one signal and did or did not call the observer. */
  datatype Step = Exited | Waiting | Stepped(notified: bool)

  /** `np.prod(shape)`: the number of elements of an item. */
  function Prod(shape: seq<int>): (p: int)
    ensures (forall i :: 0 <= i < |shape| ==> shape[i] > 0) ==> p > 0
  {
    if shape == [] then 1 else shape[0] * Prod(shape[1..])
  }

  /** Bytes of one slot: elements times item size. */
  function NBytes(shape: seq<int>, dtype: DType): (n: int)
    ensures (forall i :: 0 <= i < |shape| ==> shape[i] > 0) && dtype.itemsize > 0 ==> n > 0
    ensures dtype.itemsize == 0 ==> n == 0
  {
    Prod(shape) * dtype.itemsize
  }

  /** A slot of a fresh segment: the declared shape, every element zero. */
  function Zeroed(shape: seq<int>): (a: NdArray)
    ensures a.shape == shape
    ensures |a.elems| == if Prod(shape) < 0 then 0 else Prod(shape)
    ensures forall k :: 0 <= k < |a.elems| ==> a.elems[k] == 0
  {
    NdArray(shape, seq(if Prod(shape) < 0 then 0 else Prod(shape), _ => 0))
  }

  /** A `multiprocessing.Semaphore` shared by the two ports. */
  class Semaphore {
    var count: nat

    constructor (value: nat)
      ensures count == value
    {
      count := value;
    }

    method Release()
      modifies this
      ensures count == old(count) + 1
    {
      count := count + 1;
    }

    /** A non-blocking acquire: the blocking acquire of a background
        thread, attempted once. */
    method TryAcquire() returns (ok: bool)
      modifies this
      ensures ok == (old(count) > 0)
      ensures count == if ok then old(count) - 1 else old(count)
    {
      ok := count > 0;
      if ok {
        count := count - 1;
      }
    }
  }

  /** The input end of the channel. `permits` is the count of the
      `BoundedSemaphore(size)` that `start` creates; it has no meaning before
      `started`. `observer` is true while a wake callback is installed. */
  class SendPort {
    const name: string
    const shm: array<NdArray>
    const proto: Proto
    const size: nat
    const req: Semaphore
    const ack: Semaphore
    var idx: nat
    var done: bool
    var started: bool
    var permits: nat
    var observer: bool

    constructor (name: string, shm: array<NdArray>, proto: Proto, size: nat, req: Semaphore, ack: Semaphore)
      ensures this.name == name && this.shm == shm && this.proto == proto && this.size == size
      ensures this.req == req && this.ack == ack
      ensures idx == 0 && !done && !started && !observer
    {
      this.name, this.shm, this.proto, this.size := name, shm, proto, size;
      this.req, this.ack := req, ack;
      idx, done, started, permits, observer := 0, false, false, 0, false;
    }

    /** A `send` would not block. */
    predicate NotFull()
      reads this`permits
    {
      permits > 0
    }

    /** `start`: creates a fresh permit semaphore with `size` permits and
        launches the acknowledgement thread. Nothing stops a second call,
        which discards the permits already taken: the channel stays valid
        exactly when the port was not started yet or held every permit. */
    method Start(ghost ch: PyPyChannel)
      requires ch.Valid() && ch.src == this
      modifies this`started, this`permits
      ensures started && permits == size
      ensures ch.Valid() <==> old(!started || permits == size)
      ensures old(!started || permits == size) ==> ch.InFlight() == old(ch.InFlight())
    {
      permits := size;
      started := true;
    }

    /** `start` as its contract intends: idempotent, so a second call keeps
        the permits of the first and the channel stays valid. */
    method StartOnce(ghost ch: PyPyChannel)
      requires ch.Valid() && ch.src == this
      modifies this`started, this`permits
      ensures started && permits == if old(started) then old(permits) else size
      ensures ch.Valid() && ch.InFlight() == old(ch.InFlight())
    {
      if started {
        return;
      }
      permits := size;
      started := true;
    }

    /** One iteration of `_ack_callback`: turn one `ack` signal into one
        released permit, and call the observer only when the port was full
        just before the release. */
    method AckStep(ghost ch: PyPyChannel) returns (r: Step)
      requires ch.Valid() && ch.src == this && started
      modifies this`permits, ack
      ensures ch.Valid() && ch.InFlight() == old(ch.InFlight())
      ensures old(done) ==> r == Exited
      ensures !old(done) && old(ack.count) == 0 ==> r == Waiting
      ensures r.Stepped? <==> !old(done) && old(ack.count) > 0
      ensures r.Stepped? ==> r.notified == (observer && old(permits) == 0)
      ensures r.Stepped? ==> permits == old(permits) + 1 <= size && ack.count == old(ack.count) - 1
      ensures !r.Stepped? ==> permits == old(permits) && ack.count == old(ack.count)
    {
      if done {
        return Exited;
      }
      var got := ack.TryAcquire();
      if !got {
        return Waiting;
      }
      var notFull := Probe();
      permits := permits + 1;
      r := Stepped(observer && !notFull);
    }

    /** `probe`: the non-blocking acquire followed by a release leaves the
        permit count as it was. */
    method Probe() returns (r: bool)
      requires started
      ensures r == NotFull()
    {
      r := permits > 0;
    }

    /** `send`: the shape check comes first; then one permit is taken, slot
        `idx` is written, the cursor advances and `req` is released once. */
    method Send(x: NdArray, ghost ch: PyPyChannel) returns (r: SendResult)
      requires ch.Valid() && ch.src == this && started
      requires |x.elems| == Prod(x.shape)
      modifies this`idx, this`permits, req, shm
      ensures ch.Valid()
      ensures r == if x.shape != proto.shape then ShapeMismatch
                   else if old(permits) == 0 then Blocked else Sent
      ensures r != Sent ==> idx == old(idx) && permits == old(permits) && req.count == old(req.count)
                            && shm[..] == old(shm[..])
      ensures r == Sent ==> permits == old(permits) - 1 && req.count == old(req.count) + 1
                            && shm[..] == old(shm[..])[old(idx) := x] && idx == Next(old(idx), size)
      ensures ch.InFlight() == if r == Sent then old(ch.InFlight()) + [x] else old(ch.InFlight())
    {
      if x.shape != proto.shape {
        return ShapeMismatch;
      }
      if permits == 0 {
        return Blocked;
      }
      ghost var s, n, d := shm[..], req.count + ch.Markers(), ch.dst.idx;
      assert ch.InFlight() == Window(s, d, n);
      assert n < size && idx == Slot(d, n, size);
      WindowPush(s, d, n, x);
      permits := permits - 1;
      shm[idx] := x;
      SlotStep(d, n, size);
      idx := (idx + 1) % size;
      req.Release();
      r := Sent;
      assert shm[..] == s[Slot(d, n, size) := x];
    }

    /** `join`: the acknowledgement thread leaves its loop on its next
        iteration. */
    method Join()
      modifies this`done
      ensures done
    {
      done := true;
    }
  }

  /** The output end of the channel. `queue` holds the markers of the
      `CspRecvQueue(size)` that `start` creates; it has no meaning before
      `started`. */
  class RecvPort {
    const name: string
    const shm: array<NdArray>
    const proto: Proto
    const size: nat
    const req: Semaphore
    const ack: Semaphore
    var idx: nat
    var done: bool
    var started: bool
    var queue: seq<int>
    var observer: bool

    constructor (name: string, shm: array<NdArray>, proto: Proto, size: nat, req: Semaphore, ack: Semaphore)
      ensures this.name == name && this.shm == shm && this.proto == proto && this.size == size
      ensures this.req == req && this.ack == ack
      ensures idx == 0 && !done && !started && !observer
    {
      this.name, this.shm, this.proto, this.size := name, shm, proto, size;
      this.req, this.ack := req, ack;
      idx, done, started, queue, observer := 0, false, false, [], false;
    }

    /** A `recv` would not block. */
    predicate NotEmpty()
      reads this`queue
    {
      |queue| > 0
    }

    /** `start`: creates a fresh, empty marker queue and launches the
        request thread. A second call drops the markers already queued: the
        channel stays valid exactly when the port was not started yet or
        its queue was empty. */
    method Start(ghost ch: PyPyChannel)
      requires ch.Valid() && ch.dst == this
      modifies this`started, this`queue
      ensures started && queue == []
      ensures ch.Valid() <==> old(!started || queue == [])
      ensures old(!started || queue == []) ==> ch.InFlight() == old(ch.InFlight())
    {
      queue := [];
      started := true;
    }

    /** `start` as its contract intends: idempotent, so a second call keeps
        the queued markers and the channel stays valid. */
    method StartOnce(ghost ch: PyPyChannel)
      requires ch.Valid() && ch.dst == this
      modifies this`started, this`queue
      ensures started && queue == if old(started) then old(queue) else []
      ensures ch.Valid() && ch.InFlight() == old(ch.InFlight())
    {
      if started {
        return;
      }
      queue := [];
      started := true;
    }

    /** One iteration of `_req_callback`: turn one `req` signal into one
        queued marker, and call the observer only when the queue was empty
        before. The queue never reaches beyond its `size` bound. */
    method ReqStep(ghost ch: PyPyChannel) returns (r: Step)
      requires ch.Valid() && ch.dst == this && started
      modifies this`queue, req
      ensures ch.Valid() && ch.InFlight() == old(ch.InFlight())
      ensures old(done) ==> r == Exited
      ensures !old(done) && old(req.count) == 0 ==> r == Waiting
      ensures r.Stepped? <==> !old(done) && old(req.count) > 0
      ensures r.Stepped? ==> r.notified == (observer && old(queue) == [])
      ensures r.Stepped? ==> queue == old(queue) + [0] && |queue| <= size && req.count == old(req.count) - 1
      ensures !r.Stepped? ==> queue == old(queue) && req.count == old(req.count)
    {
      if done {
        return Exited;
      }
      var got := req.TryAcquire();
      if !got {
        return Waiting;
      }
      var notEmpty := Probe();
      queue := queue + [0];
      r := Stepped(observer && !notEmpty);
    }

    /** `probe`: the marker queue is non-empty. */
    method Probe() returns (r: bool)
      requires started
      ensures r == NotEmpty()
    {
      r := |queue| > 0;
    }

    /** `peek`: the oldest unread item, without removing its marker or
        moving the cursor. */
    method Peek(ghost ch: PyPyChannel) returns (r: Poll<NdArray>)
      requires ch.Valid() && ch.dst == this && started
      ensures r == if queue == [] then Pending else Ready(ch.InFlight()[0])
    {
      if queue == [] {
        return Pending;
      }
      r := Ready(shm[idx]);
    }

    /** `recv`: removes one marker, returns slot `idx`, advances the cursor
        and releases `ack` once. */
    method Recv(ghost ch: PyPyChannel) returns (r: Poll<NdArray>)
      requires ch.Valid() && ch.dst == this && started
      modifies this`idx, this`queue, ack
      ensures ch.Valid()
      ensures old(queue) == [] ==> r == Pending && idx == old(idx) && queue == old(queue) && ack.count == old(ack.count)
                                   && ch.InFlight() == old(ch.InFlight())
      ensures old(queue) != [] ==> r == Ready(old(ch.InFlight())[0]) && r.value == shm[old(idx)]
                                   && ch.InFlight() == old(ch.InFlight())[1..]
                                   && queue == old(queue)[1..] && idx == Next(old(idx), size)
                                   && ack.count == old(ack.count) + 1
    {
      if queue == [] {
        return Pending;
      }
      ghost var s, n := shm[..], req.count + |queue|;
      WindowPop(s, idx, n);
      queue := queue[1..];
      r := Ready(shm[idx]);
      idx := (idx + 1) % size;
      ack.Release();
    }

    /** `join`: the request thread leaves its loop on its next iteration. */
    method Join()
      modifies this`done
      ensures done
    {
      done := true;
    }
  }

  /** `PyPyChannel`: creates the segment, the two semaphores and the two
      ports that share them. */
  class PyPyChannel {
    const src: SendPort
    const dst: RecvPort

    constructor (srcName: string, dstName: string, shape: seq<int>, dtype: DType, size: nat)
      requires size > 0
      ensures Valid() && InFlight() == []
      ensures src.name == srcName && dst.name == dstName && src.size == size
      ensures src.proto == Proto(shape, dtype, NBytes(shape, dtype))
      ensures src.req.count == 0 && src.ack.count == 0
      ensures !src.started && !dst.started && src.idx == 0 && dst.idx == 0
      ensures !src.done && !dst.done && !src.observer && !dst.observer
      ensures fresh(src) && fresh(dst) && fresh(src.shm) && fresh(src.req) && fresh(src.ack)
    {
      var nbytes := NBytes(shape, dtype);
      var shm := new NdArray[size](_ => Zeroed(shape));
      var req := new Semaphore(0);
      var ack := new Semaphore(0);
      var proto := Proto(shape, dtype, nbytes);
      src := new SendPort(srcName, shm, proto, size, req, ack);
      dst := new RecvPort(dstName, shm, proto, size, req, ack);
    }

    /** Permits the sender holds; a sender not yet started holds all of
        them in the sense that nothing has been sent. */
    ghost function Permits(): nat
      reads this, src
    {
      if src.started then src.permits else src.size
    }

    /** Markers queued at the receiver. */
    ghost function Markers(): nat
      reads this, dst
    {
      if dst.started then |dst.queue| else 0
    }

    /** Both ports share one segment, one `req`, one `ack`, one proto and one
        depth; every slot is a permit, a pending `req`, a queued marker or a
        pending `ack`; the send cursor is as far ahead of the receive cursor
        as there are items in flight. */
    ghost predicate Valid()
      reads this, src, dst, src.req, src.ack
    {
      && src.size > 0 && dst.size == src.size
      && src.shm == dst.shm && src.shm.Length == src.size
      && src.req == dst.req && src.ack == dst.ack && src.req != src.ack
      && src.proto == dst.proto
      && src.idx < src.size && dst.idx < src.size
      && Permits() + src.req.count + Markers() + src.ack.count == src.size
      && src.idx == Slot(dst.idx, src.req.count + Markers(), src.size)
    }

    /** The items sent and not yet received, oldest first. */
    ghost function InFlight(): (w: seq<NdArray>)
      requires Valid()
      reads this, src, dst, src.req, src.ack, src.shm
      ensures |w| == src.req.count + Markers() <= src.size
    {
      Window(src.shm[..], dst.idx, src.req.count + Markers())
    }
  }

  /** Between `[0, size]` items are in flight, and the marker queue never
      holds more than `size` markers. */
  lemma InFlightBounded(ch: PyPyChannel)
    requires ch.Valid()
    ensures 0 <= |ch.InFlight()| <= ch.src.size
    ensures ch.Markers() <= |ch.InFlight()|
  {
  }

  /** A started sender holds every permit exactly when nothing is in flight
      and no freed slot waits to be turned into a permit: so a second
      `SendPort.Start` keeps the channel valid exactly in that case. */
  lemma FullPermitsIffIdle(ch: PyPyChannel)
    requires ch.Valid() && ch.src.started
    ensures ch.src.permits == ch.src.size <==> ch.InFlight() == [] && ch.src.ack.count == 0
  {
  }

  /** A second `start` of the sender with one item unread: the sender holds
      a permit for every slot while a request is still pending, so its next
      `size` sends may overwrite the unread item. */
  method RestartWithItemUnread() returns (ch: PyPyChannel)
    ensures ch.src.started && ch.src.permits == ch.src.size && ch.src.req.count == 1
    ensures !ch.Valid()
  {
    ch := new PyPyChannel("src", "dst", [1], DType(0, 4), 1);
    ch.src.Start(ch);
    ch.dst.Start(ch);
    var r := ch.src.Send(NdArray([1], [7]), ch);
    assert r == Sent;
    ch.src.Start(ch);
  }

  /** The sender's probe is true exactly when the items in flight plus the
      freed slots whose `ack` the sender has not yet turned into a permit
      leave room in the ring; the receiver's probe is true only when an
      item is in flight. */
  lemma ProbeMeaning(ch: PyPyChannel)
    requires ch.Valid() && ch.src.started && ch.dst.started
    ensures ch.src.NotFull() <==> |ch.InFlight()| + ch.src.ack.count < ch.src.size
    ensures ch.dst.NotEmpty() ==> |ch.InFlight()| > 0
  {
  }

  /** A registration of `CspSelector.select`: a port it waits on. The
      action paired with the port is identified by the index of the pair. */
  datatype Endpoint = SendEnd(s: SendPort) | RecvEnd(r: RecvPort)

  function Senders(pairs: seq<Endpoint>): set<SendPort>
  {
    set i | 0 <= i < |pairs| && pairs[i].SendEnd? :: pairs[i].s
  }

  function Receivers(pairs: seq<Endpoint>): set<RecvPort>
  {
    set i | 0 <= i < |pairs| && pairs[i].RecvEnd? :: pairs[i].r
  }

  /** What `probe` of each listed port returns, in argument order. */
  function Readiness(pairs: seq<Endpoint>): (ready: seq<bool>)
    reads Senders(pairs), Receivers(pairs)
    ensures |ready| == |pairs|
    ensures forall i :: 0 <= i < |pairs| ==>
      ready[i] == match pairs[i] case SendEnd(s) => s.NotFull() case RecvEnd(q) => q.NotEmpty()
  {
    seq(|pairs|, i requires 0 <= i < |pairs| reads Senders(pairs), Receivers(pairs) =>
      match pairs[i] case SendEnd(s) => s.permits > 0 case RecvEnd(q) => |q.queue| > 0)
  }

  /** The index of the first ready entry, if any. */
  function FirstReady(ready: seq<bool>): (r: Option<nat>)
    ensures r.Some? ==> r.value < |ready| && ready[r.value]
    ensures r.Some? ==> forall j :: 0 <= j < r.value ==> !ready[j]
    ensures r.None? <==> forall j :: 0 <= j < |ready| ==> !ready[j]
  {
    if ready == [] then None
    else if ready[0] then Some(0)
    else match FirstReady(ready[1..])
      case None => None
      case Some(k) => Some(k + 1)
  }

  /** `_set_observer`: installs or clears the wake callback of every listed
      port. */
  method SetObserver(pairs: seq<Endpoint>, installed: bool)
    modifies Senders(pairs)`observer, Receivers(pairs)`observer
    ensures forall s :: s in Senders(pairs) ==> s.observer == installed
    ensures forall q :: q in Receivers(pairs) ==> q.observer == installed
  {
    var i := 0;
    while i < |pairs|
      invariant 0 <= i <= |pairs|
      invariant forall j :: 0 <= j < i && pairs[j].SendEnd? ==> pairs[j].s.observer == installed
      invariant forall j :: 0 <= j < i && pairs[j].RecvEnd? ==> pairs[j].r.observer == installed
    {
      match pairs[i] {
        case SendEnd(s) => s.observer := installed;
        case RecvEnd(q) => q.observer := installed;
      }
      i := i + 1;
    }
  }

  /** One scan of `CspSelector.select`: installs the wake callback on every
      listed port, then returns the index of the first pair in argument
      order whose port probes ready, after clearing every observer. When
      none is ready the callbacks stay installed and the real selector
      waits and scans again from the top. */
  method Select(pairs: seq<Endpoint>) returns (r: Option<nat>)
    requires forall s :: s in Senders(pairs) ==> s.started
    requires forall q :: q in Receivers(pairs) ==> q.started
    modifies Senders(pairs)`observer, Receivers(pairs)`observer
    ensures r == FirstReady(old(Readiness(pairs)))
    ensures forall s :: s in Senders(pairs) ==> s.observer == r.None?
    ensures forall q :: q in Receivers(pairs) ==> q.observer == r.None?
  {
    SetObserver(pairs, true);
    var i := 0;
    while i < |pairs|
      invariant 0 <= i <= |pairs|
      invariant forall j :: 0 <= j < i ==> !old(Readiness(pairs))[j]
      invariant forall s :: s in Senders(pairs) ==> s.observer
      invariant forall q :: q in Receivers(pairs) ==> q.observer
    {
      var ready: bool;
      match pairs[i] {
        case SendEnd(s) =>
          assert s in Senders(pairs);
          ready := s.Probe();
        case RecvEnd(q) =>
          assert q in Receivers(pairs);
          ready := q.Probe();
      }
      if ready {
        SetObserver(pairs, false);
        return Some(i);
      }
      i := i + 1;
    }
    r := None;
  }
}

=== FILE: ring.dfy ===
/** Shared vocabulary of the channel layer: optional values, the outcome of
    one attempt at a blocking call, and the circular-slot arithmetic that all
    three ring buffers (Python CSP channel, gRPC server buffer, native
    shared-memory ports) use. */
module Ring {

  datatype Option<T> = None | Some(value: T)

  /** One attempt at a call that may block in the system: `Ready` when it
      completed, `Pending` when it would have to wait for the peer (nothing
      has changed), `Closed` when the endpoint has been shut down. */
  datatype Poll<T> = Ready(value: T) | Pending | Closed

  /** The cursor reached from `start` after `k` single steps that each wrap
      to 0 at `size`; equal to `(start + k) % size`. */
  function Slot(start: nat, k: nat, size: nat): (r: nat)
    requires start < size && k <= size
    ensures r < size
    ensures r == (start + k) % size
  {
    WrapOnce(start + k, size);
    if start + k < size then start + k else start + k - size
  }

  /** A value below two turns wraps at most once. */
  lemma WrapOnce(x: nat, size: nat)
    requires 0 < size && x < 2 * size
    ensures x % size == if x < size then x else x - size
  {
    if x >= size {
      assert x == size + (x - size);
      assert (x - size) % size == x - size;
    }
  }

  /** One step of a cursor: `(i + 1) % size`. */
  function Next(i: nat, size: nat): (r: nat)
    requires i < size
    ensures r < size
    ensures r == (i + 1) % size
  {
    Slot(i, 1, size)
  }

  /** Stepping the cursor once more reaches one slot further. */
  lemma SlotStep(start: nat, k: nat, size: nat)
    requires start < size && k < size
    ensures Next(Slot(start, k, size), size) == Slot(start, k + 1, size)
    ensures Slot(Next(start, size), k, size) == Slot(start, k + 1, size)
  {
  }

  /** The `n` slots of ring `s` that follow `start`, in cursor order. */
  function Window<T>(s: seq<T>, start: nat, n: nat): (w: seq<T>)
    requires start < |s| && n <= |s|
    ensures |w| == n
    ensures forall k :: 0 <= k < n ==> w[k] == s[Slot(start, k, |s|)]
  {
    seq(n, k requires 0 <= k < n => s[Slot(start, k, |s|)])
  }

  /** Distinct step counts below a full turn land on distinct slots. */
  lemma {:induction false} SlotInjective(start: nat, j: nat, k: nat, size: nat)
    requires start < size && j < k <= size && k - j < size
    ensures Slot(start, j, size) != Slot(start, k, size)
  {
  }

  /** Writing `x` into the first free slot after a window of `n < |s|`
      occupied slots appends `x` to the window and leaves its first `n`
      elements untouched. */
  lemma {:induction false} WindowPush<T>(s: seq<T>, start: nat, n: nat, x: T)
    requires start < |s| && n < |s|
    ensures Window(s[Slot(start, n, |s|) := x], start, n + 1) == Window(s, start, n) + [x]
  {
    var t := s[Slot(start, n, |s|) := x];
    var lhs, rhs := Window(t, start, n + 1), Window(s, start, n) + [x];
    forall k | 0 <= k < n + 1 ensures lhs[k] == rhs[k] {
      if k < n {
        SlotInjective(start, k, n, |s|);
      }
    }
  }

  /** Advancing the start cursor by one drops the oldest element. */
  lemma {:induction false} WindowPop<T>(s: seq<T>, start: nat, n: nat)
    requires start < |s| && 0 < n <= |s|
    ensures Window(s, Next(start, |s|), n - 1) == Window(s, start, n)[1..]
  {
    var lhs, rhs := Window(s, Next(start, |s|), n - 1), Window(s, start, n)[1..];
    forall k | 0 <= k < n - 1 ensures lhs[k] == rhs[k] {
      assert Slot(Next(start, |s|), k, |s|) == Slot(start, k + 1, |s|);
    }
  }
}

=== FILE: shmem_channel.dfy ===
/** The native shared-memory channel: one segment of `size` slots, a send
    port writing into it, and a receive port reading from it, chosen by
    depth. Nothing in the channel changes after construction. */
module ShmemChannels {
  import opened Ring
  import opened Meta
  import opened ShmemPort

  /** The bytes of one slot: a `MetaData` header and `nbytes` of payload.
      A slot holds a whole header, and the payload capacity that `Send`
      checks against and `Recv` decodes with, `s - HEADER_SIZE`, is exactly
      the `nbytes` the channel was asked for. */
  function SlotSize(nbytes: nat): (s: nat)
    ensures HEADER_SIZE <= s
    ensures s - HEADER_SIZE == nbytes
  {
    nbytes + HEADER_SIZE
  }

  /** The receive side: a ring reader for a channel deeper than one slot,
      the single-slot reader otherwise. */
  datatype RecvEnd = Ring(ring: ShmemRecvPort) | Block(block: ShmemBlockRecvPort)

  class ShmemChannel {
    const shm: SharedMemory
    const sendPort: ShmemSendPort
    const recvPort: RecvEnd

    /** The two ports of a fresh channel share one segment of `size` slots
        of `SlotSize(nbytes)` bytes. The receiver reads where the sender
        writes, and nothing is in flight. */
    constructor (srcName: string, dstName: string, size: nat, nbytes: nat)
      ensures shm.slots == size && shm.data.Length == SlotSize(nbytes) * size
      ensures shm.req == 0 && shm.ack == size
      ensures sendPort.name == srcName && sendPort.shm == shm
      ensures sendPort.size == size && sendPort.nbytes == SlotSize(nbytes)
      ensures size > 1 ==> recvPort.Ring? && recvPort.ring.name == dstName && recvPort.ring.Peer(sendPort)
                           && !recvPort.ring.done && recvPort.ring.idx == 0
      ensures size <= 1 ==> recvPort.Block? && recvPort.block.name == dstName
                            && recvPort.block.shm == shm && recvPort.block.nbytes == SlotSize(nbytes)
      ensures size == 1 ==> recvPort.block.Peer(sendPort)
      ensures size > 0 ==> Coherent(sendPort, 0) && InFlight(sendPort, 0) == []
      ensures fresh(shm) && fresh(shm.data) && fresh(sendPort)
    {
      var shmemSize := SlotSize(nbytes);
      var segment := new SharedMemory(shmemSize, size);
      shm := segment;
      sendPort := new ShmemSendPort(srcName, segment, size, shmemSize);
      if size > 1 {
        var r := new ShmemRecvPort(dstName, segment, size, shmemSize);
        recvPort := Ring(r);
      } else {
        var b := new ShmemBlockRecvPort(dstName, segment, shmemSize);
        recvPort := Block(b);
      }
    }

    /** `GetSendPort`: the port stored at construction. */
    method GetSendPort() returns (p: ShmemSendPort)
      ensures p == sendPort
    {
      p := sendPort;
    }

    /** `GetRecvPort`: the port stored at construction. */
    method GetRecvPort() returns (p: RecvEnd)
      ensures p == recvPort
    {
      p := recvPort;
    }
  }

  /** `GetShmemChannel(size, nbytes, src_name, dst_name)`: the channel
      constructor with its arguments reordered. */
  method GetShmemChannel(size: nat, nbytes: nat, srcName: string, dstName: string) returns (c: ShmemChannel)
    ensures c.shm.slots == size && c.shm.data.Length == SlotSize(nbytes) * size
    ensures c.shm.req == 0 && c.shm.ack == size
    ensures c.sendPort.name == srcName && c.sendPort.shm == c.shm
    ensures c.sendPort.size == size && c.sendPort.nbytes == SlotSize(nbytes)
    ensures c.recvPort.Ring? <==> size > 1
    ensures size > 1 ==> c.recvPort.ring.name == dstName && c.recvPort.ring.Peer(c.sendPort)
                         && !c.recvPort.ring.done && c.recvPort.ring.idx == 0
    ensures size <= 1 ==> c.recvPort.block.name == dstName
                          && c.recvPort.block.shm == c.shm && c.recvPort.block.nbytes == SlotSize(nbytes)
    ensures size == 1 ==> c.recvPort.block.Peer(c.sendPort)
    ensures size > 0 ==> Coherent(c.sendPort, 0) && InFlight(c.sendPort, 0) == []
    ensures fresh(c) && fresh(c.shm) && fresh(c.shm.data) && fresh(c.sendPort)
  {
    c := new ShmemChannel(srcName, dstName, size, nbytes);
  }
}

=== FILE: shmem_port.dfy ===
/** The native shared-memory ports. The segment is `size` slots of `nbytes`
    bytes each; slot `idx` starts at byte `idx * nbytes` and holds a
    `MetaData` header followed by the payload. The segment's two semaphores
    are the counters `req` (slots written, seeded 0) and `ack` (slots free,
    seeded `size`). The bodies of `SharedMemory::Store` and `Load` are not
    part of this model: `Store` is taken to wait for `ack`, run the writer
    and post `req`, and `Load` to try `req`, run the reader and post `ack`. */
module ShmemPort {
  import opened Ring
  import opened Bytes
  import opened Meta

  datatype SendStatus = TooLarge | NoFreeSlot | Written

  /** `MetaDataPtrFromPointer(ptr, p, nbytes)`: copy the header out of `p`,
      then at most `capacity` payload bytes. A negative announced length
      makes the allocation fail; that case has no result. */
  function MetaDataFromPointer(p: seq<byte>, capacity: int): (r: Option<MetaData>)
    requires 0 <= capacity && HEADER_SIZE + capacity <= |p|
    ensures r.Some? <==> Len(DecodeHeader(p[..HEADER_SIZE])) >= 0
    ensures r.Some? ==> |r.value.mdata| <= capacity
    ensures r.Some? ==> r.value.(mdata := []) == DecodeHeader(p[..HEADER_SIZE])
    ensures r.Some? ==> r.value.mdata == p[HEADER_SIZE..HEADER_SIZE + |r.value.mdata|]
    ensures r.Some? && Len(DecodeHeader(p[..HEADER_SIZE])) <= capacity ==>
              |r.value.mdata| == Len(DecodeHeader(p[..HEADER_SIZE]))
  {
    var h := DecodeHeader(p[..HEADER_SIZE]);
    var len := if Len(h) > capacity then capacity else Len(h);
    if len < 0 then None else Some(h.(mdata := p[HEADER_SIZE..HEADER_SIZE + len]))
  }

  /** What a receiver gets back for `m`: the header and the `Len(m)` bytes
      the sender copies. */
  function Received(m: MetaData): MetaData
    requires 0 <= Len(m) <= |m.mdata|
  {
    m.(mdata := m.mdata[..Len(m)])
  }

  /** The slot `Send` leaves behind: header, payload, then whatever the
      slot held beyond them. */
  function SlotImage(m: MetaData, prev: seq<byte>): (img: seq<byte>)
    requires WellFormed(m) && 0 <= Len(m) <= |m.mdata| && HEADER_SIZE + Len(m) <= |prev|
    ensures |img| == |prev|
  {
    EncodeHeader(m) + m.mdata[..Len(m)] + prev[HEADER_SIZE + Len(m)..]
  }

  /** Decoding the slot that `Send` wrote gives back the header fields and
      the payload bytes, whenever the payload fits the slot. */
  lemma SlotRoundTrip(m: MetaData, prev: seq<byte>, capacity: int)
    requires WellFormed(m) && 0 <= Len(m) <= |m.mdata|
    requires 0 <= capacity && |prev| == HEADER_SIZE + capacity && Len(m) <= capacity
    ensures MetaDataFromPointer(SlotImage(m, prev), capacity) == Some(Received(m))
  {
    var img := SlotImage(m, prev);
    assert img[..HEADER_SIZE] == EncodeHeader(m);
    HeaderRoundTrip(m);
    assert img[HEADER_SIZE..HEADER_SIZE + Len(m)] == m.mdata[..Len(m)];
  }

  lemma SlotBounds(j: nat, size: nat, nbytes: nat)
    requires j < size
    ensures 0 <= j * nbytes && j * nbytes + nbytes == (j + 1) * nbytes <= size * nbytes
  {
    var k := size - j - 1;
    assert size * nbytes == (j + 1) * nbytes + k * nbytes;
  }

  lemma SlotsApart(j: nat, k: nat, nbytes: nat)
    requires j < k
    ensures (j + 1) * nbytes <= k * nbytes
  {
    assert k * nbytes == (j + 1) * nbytes + (k - j - 1) * nbytes;
  }

  /** Slot `j` of a segment. */
  function SlotAt(data: seq<byte>, size: nat, nbytes: nat, j: nat): (s: seq<byte>)
    requires |data| == size * nbytes && j < size
    ensures |s| == nbytes
  {
    SlotBounds(j, size, nbytes);
    data[j * nbytes..(j + 1) * nbytes]
  }

  /** The segment cut into its slots. */
  function Slots(data: seq<byte>, size: nat, nbytes: nat): (s: seq<seq<byte>>)
    requires |data| == size * nbytes
    ensures |s| == size
    ensures forall j :: 0 <= j < size ==> s[j] == SlotAt(data, size, nbytes, j)
  {
    seq(size, j requires 0 <= j < size => SlotAt(data, size, nbytes, j))
  }

  /** The segment with slot `j` replaced by `img`. */
  function Overwrite(data: seq<byte>, size: nat, nbytes: nat, j: nat, img: seq<byte>): (d: seq<byte>)
    requires |data| == size * nbytes && j < size && |img| == nbytes
    ensures |d| == size * nbytes
  {
    SlotBounds(j, size, nbytes);
    data[..j * nbytes] + img + data[(j + 1) * nbytes..]
  }

  /** Overwriting slot `j` changes slot `j` and no other. */
  lemma SlotsWrite(data: seq<byte>, size: nat, nbytes: nat, j: nat, img: seq<byte>)
    requires |data| == size * nbytes && j < size && |img| == nbytes
    ensures Slots(Overwrite(data, size, nbytes, j, img), size, nbytes) == Slots(data, size, nbytes)[j := img]
  {
    SlotBounds(j, size, nbytes);
    var d' := Overwrite(data, size, nbytes, j, img);
    forall k | 0 <= k < size
      ensures SlotAt(d', size, nbytes, k) == Slots(data, size, nbytes)[j := img][k]
    {
      SlotBounds(k, size, nbytes);
      if k < j {
        SlotsApart(k, j, nbytes);
      } else if k > j {
        SlotsApart(j, k, nbytes);
      }
    }
  }

  /** `memcpy(dst + off, src, |src|)`. */
  method MemCpy(dst: array<byte>, off: nat, src: seq<byte>)
    requires off + |src| <= dst.Length
    modifies dst
    ensures dst[..] == old(dst[..])[..off] + src + old(dst[..])[off + |src|..]
  {
    forall i | 0 <= i < |src| {
      dst[off + i] := src[i];
    }
  }

  /** Two `memcpy`s to adjacent ranges equal one of the concatenation. */
  lemma CopyTwice(d: seq<byte>, o: nat, h: seq<byte>, p: seq<byte>)
    requires o + |h| + |p| <= |d|
    ensures var d1 := d[..o] + h + d[o + |h|..];
      d1[..o + |h|] + p + d1[o + |h| + |p|..] == d[..o] + h + p + d[o + |h| + |p|..]
  {
    var d1 := d[..o] + h + d[o + |h|..];
    assert d1[..o + |h|] == d[..o] + h;
    assert d1[o + |h| + |p|..] == d[o + |h| + |p|..];
  }

  /** The segment after `Send` copied the header of `m` and its payload to
      offset `o`. */
  function AfterSend(data: seq<byte>, o: nat, m: MetaData): (d: seq<byte>)
    requires WellFormed(m) && 0 <= Len(m) <= |m.mdata| && o + HEADER_SIZE + Len(m) <= |data|
    ensures |d| == |data|
  {
    data[..o] + EncodeHeader(m) + m.mdata[..Len(m)] + data[o + HEADER_SIZE + Len(m)..]
  }

  /** Every slot of `w` holds a header whose announced length is not
      negative, so that it decodes with `capacity` payload bytes. */
  predicate AllDecode(w: seq<seq<byte>>, capacity: int)
  {
    && 0 <= capacity
    && forall k :: 0 <= k < |w| ==>
         HEADER_SIZE + capacity <= |w[k]| && MetaDataFromPointer(w[k], capacity).Some?
  }

  /** The messages held by a sequence of slots. */
  function Decoded(w: seq<seq<byte>>, capacity: int): (ms: seq<MetaData>)
    requires AllDecode(w, capacity)
    ensures |ms| == |w|
  {
    seq(|w|, k requires 0 <= k < |w| => MetaDataFromPointer(w[k], capacity).value)
  }

  /** Copying header and payload into slot `j` replaces that slot by its
      image and leaves the rest of the segment alone. */
  lemma AfterSendSlot(data: seq<byte>, size: nat, nbytes: nat, j: nat, m: MetaData)
    requires |data| == size * nbytes && HEADER_SIZE <= nbytes && j < size
    requires WellFormed(m) && 0 <= Len(m) <= |m.mdata| && Len(m) <= nbytes - HEADER_SIZE
    ensures j * nbytes + nbytes <= |data|
    ensures AfterSend(data, j * nbytes, m)
              == Overwrite(data, size, nbytes, j, SlotImage(m, SlotAt(data, size, nbytes, j)))
  {
    SlotBounds(j, size, nbytes);
    var o := j * nbytes;
    var slot := SlotAt(data, size, nbytes, j);
    assert slot[HEADER_SIZE + Len(m)..] == data[o + HEADER_SIZE + Len(m)..o + nbytes];
  }

  /** The writer that `Send` hands to `Store`: the header of `m` at the
      start of slot `j`, then its `Len(m)` payload bytes. */
  method WriteSlot(dst: array<byte>, size: nat, nbytes: nat, j: nat, m: MetaData)
    requires dst.Length == size * nbytes && HEADER_SIZE <= nbytes && j < size
    requires WellFormed(m) && 0 <= Len(m) <= |m.mdata| && Len(m) <= nbytes - HEADER_SIZE
    modifies dst
    ensures dst[..] == Overwrite(old(dst[..]), size, nbytes, j, SlotImage(m, SlotAt(old(dst[..]), size, nbytes, j)))
  {
    ghost var data := dst[..];
    AfterSendSlot(data, size, nbytes, j, m);
    var len := Len(m);
    var off := j * nbytes;
    MemCpy(dst, off, EncodeHeader(m));
    MemCpy(dst, off + HEADER_SIZE, m.mdata[..len]);
    CopyTwice(data, off, EncodeHeader(m), m.mdata[..len]);
    assert dst[..] == AfterSend(data, off, m);
  }

  /** The `n` slots that follow the receive cursor `ridx`, in the order
      the receiver reads them, all hold a decodable header. */
  ghost predicate Queued(data: seq<byte>, size: nat, nbytes: nat, ridx: nat, n: nat)
  {
    && |data| == size * nbytes && HEADER_SIZE <= nbytes && ridx < size && n <= size
    && AllDecode(Window(Slots(data, size, nbytes), ridx, n), nbytes - HEADER_SIZE)
  }

  /** The messages those `n` slots hold, oldest first. */
  ghost function Messages(data: seq<byte>, size: nat, nbytes: nat, ridx: nat, n: nat): (ms: seq<MetaData>)
    requires Queued(data, size, nbytes, ridx, n)
    ensures |ms| == n
  {
    Decoded(Window(Slots(data, size, nbytes), ridx, n), nbytes - HEADER_SIZE)
  }

  /** Writing `m` into the first free slot after `n` written ones appends
      `m`, cut to its announced length, to the messages in flight. */
  lemma PushSlot(data: seq<byte>, size: nat, nbytes: nat, ridx: nat, n: nat, j: nat, m: MetaData)
    requires Queued(data, size, nbytes, ridx, n) && n < size
    requires j == Slot(ridx, n, size)
    requires WellFormed(m) && 0 <= Len(m) <= |m.mdata| && Len(m) <= nbytes - HEADER_SIZE
    ensures var d := Overwrite(data, size, nbytes, j, SlotImage(m, SlotAt(data, size, nbytes, j)));
      && Queued(d, size, nbytes, ridx, n + 1)
      && Messages(d, size, nbytes, ridx, n + 1) == Messages(data, size, nbytes, ridx, n) + [Received(m)]
  {
    var slot := SlotAt(data, size, nbytes, j);
    var img := SlotImage(m, slot);
    var d := Overwrite(data, size, nbytes, j, img);
    SlotsWrite(data, size, nbytes, j, img);
    WindowPush(Slots(data, size, nbytes), ridx, n, img);
    SlotRoundTrip(m, slot, nbytes - HEADER_SIZE);
    var cap := nbytes - HEADER_SIZE;
    var w, w' := Window(Slots(data, size, nbytes), ridx, n), Window(Slots(d, size, nbytes), ridx, n + 1);
    assert w' == w + [img];
    assert Decoded(w', cap) == Decoded(w, cap) + [Received(m)];
  }

  /** As written, `Send` logs an oversized payload and copies it anyway:
      with two slots of one payload byte each, a two-byte payload sent into
      slot 0 overwrites the first byte of slot 1. */
  lemma OversizeSendClobbersNextSlot()
    ensures var nbytes := HEADER_SIZE + 1;
      var data := seq(2 * nbytes, _ => 0 as byte);
      var m := MetaData(0, 0, 1, 2, seq(MAX_ARRAY_DIMS, _ => 0), seq(MAX_ARRAY_DIMS, _ => 0), [1, 1]);
      && WellFormed(m) && Len(m) == 2 > nbytes - HEADER_SIZE
      && SlotAt(AfterSend(data, 0, m), 2, nbytes, 1) != SlotAt(data, 2, nbytes, 1)
  {
    var nbytes := HEADER_SIZE + 1;
    var data := seq(2 * nbytes, _ => 0 as byte);
    var m := MetaData(0, 0, 1, 2, seq(MAX_ARRAY_DIMS, _ => 0), seq(MAX_ARRAY_DIMS, _ => 0), [1, 1]);
    assert Len(m) == 2;
    var d := AfterSend(data, 0, m);
    assert d[HEADER_SIZE + 1] == 1;
    assert SlotAt(d, 2, nbytes, 1)[0] == d[nbytes];
    assert SlotAt(data, 2, nbytes, 1)[0] == 0;
  }

  /** As written, `Peek` misses a queued message: after one fitting send
      into an empty two-slot segment, the oldest message in flight has
      `nd == 1`, so it is not the empty record `Peek` returns. */
  lemma PeekMissesQueuedMessage()
    ensures var nbytes := HEADER_SIZE + 1;
      var data := seq(2 * nbytes, _ => 0 as byte);
      var m := EmptyMeta().(nd := 1);
      var d := Overwrite(data, 2, nbytes, 0, SlotImage(m, SlotAt(data, 2, nbytes, 0)));
      && Queued(d, 2, nbytes, 0, 1)
      && Messages(d, 2, nbytes, 0, 1)[0] != EmptyMeta()
  {
    var nbytes := HEADER_SIZE + 1;
    var data := seq(2 * nbytes, _ => 0 as byte);
    var m := EmptyMeta().(nd := 1);
    assert Len(m) == 0;
    assert Queued(data, 2, nbytes, 0, 0);
    PushSlot(data, 2, nbytes, 0, 0, 0, m);
    assert Received(m).nd == 1;
  }

  /** Decoding the slot at the receive cursor yields the oldest message in
      flight, and advancing the cursor drops it. */
  lemma PopSlot(data: seq<byte>, size: nat, nbytes: nat, ridx: nat, n: nat)
    requires Queued(data, size, nbytes, ridx, n) && 0 < n
    ensures MetaDataFromPointer(SlotAt(data, size, nbytes, ridx), nbytes - HEADER_SIZE)
              == Some(Messages(data, size, nbytes, ridx, n)[0])
    ensures Queued(data, size, nbytes, Next(ridx, size), n - 1)
    ensures Messages(data, size, nbytes, Next(ridx, size), n - 1) == Messages(data, size, nbytes, ridx, n)[1..]
  {
    WindowPop(Slots(data, size, nbytes), ridx, n);
    assert Window(Slots(data, size, nbytes), ridx, n)[0] == SlotAt(data, size, nbytes, ridx);
  }

  /** The mapped segment with its two semaphores. */
  class SharedMemory {
    const slots: nat
    const data: array<byte>
    var req: nat
    var ack: nat

    constructor (slotBytes: nat, slots: nat)
      ensures this.slots == slots && data.Length == slotBytes * slots && fresh(data)
      ensures req == 0 && ack == slots
    {
      this.slots := slots;
      data := new byte[slotBytes * slots](_ => 0);
      req, ack := 0, slots;
    }
  }

  class ShmemSendPort {
    const name: string
    const shm: SharedMemory
    const size: nat
    const nbytes: nat
    var done: bool
    var idx: nat

    constructor (name: string, shm: SharedMemory, size: nat, nbytes: nat)
      ensures this.name == name && this.shm == shm && this.size == size && this.nbytes == nbytes
      ensures !done && idx == 0
    {
      this.name, this.shm, this.size, this.nbytes := name, shm, size, nbytes;
      done, idx := false, 0;
    }

    /** `Send`: write the header at `idx * nbytes`, then `Len(m)` payload
        bytes after it, and advance `idx` modulo `size`. A payload longer
        than the slot is refused here; the source only logs it (see the
        findings of README.md). */
    method Send(m: MetaData, ghost ridx: nat) returns (r: SendStatus)
      requires WellFormed(m) && 0 <= Len(m) <= |m.mdata|
      requires Coherent(this, ridx)
      modifies this`idx, shm, shm.data
      ensures Coherent(this, ridx)
      ensures r == if Len(m) > nbytes - HEADER_SIZE then TooLarge
                   else if old(shm.ack) == 0 then NoFreeSlot else Written
      ensures r != Written ==> idx == old(idx) && shm.req == old(shm.req) && shm.ack == old(shm.ack)
                               && shm.data[..] == old(shm.data[..])
      ensures r == Written ==> idx == Next(old(idx), size)
                               && shm.req == old(shm.req) + 1 && shm.ack == old(shm.ack) - 1
      ensures r == Written ==> shm.data[..] == Overwrite(old(shm.data[..]), size, nbytes, old(idx),
                                                    SlotImage(m, SlotAt(old(shm.data[..]), size, nbytes, old(idx))))
      ensures InFlight(this, ridx) == if r == Written then old(InFlight(this, ridx)) + [Received(m)]
                                      else old(InFlight(this, ridx))
    {
      var len := Len(m);
      if len > nbytes - HEADER_SIZE {
        return TooLarge;
      }
      if shm.ack == 0 {
        return NoFreeSlot;
      }
      Store(m, ridx);
      r := Written;
    }

    /** The `shm_->Store` step of `Send` for a payload that fits, into a
        free slot: write the slot image at `idx`, advance `idx`, and move
        one slot from `ack` to `req`. */
    method Store(m: MetaData, ghost ridx: nat)
      requires WellFormed(m) && 0 <= Len(m) <= |m.mdata| && Len(m) <= nbytes - HEADER_SIZE
      requires Coherent(this, ridx) && shm.ack > 0
      modifies this`idx, shm, shm.data
      ensures Coherent(this, ridx)
      ensures idx == Next(old(idx), size) && shm.req == old(shm.req) + 1 && shm.ack == old(shm.ack) - 1
      ensures shm.data[..] == Overwrite(old(shm.data[..]), size, nbytes, old(idx),
                                        SlotImage(m, SlotAt(old(shm.data[..]), size, nbytes, old(idx))))
      ensures InFlight(this, ridx) == old(InFlight(this, ridx)) + [Received(m)]
    {
      ghost var data := shm.data[..];
      StoreStep(size, nbytes, idx, ridx, shm.req, shm.ack, data, m);
      var next := (idx + 1) % size;
      WriteSlot(shm.data, size, nbytes, idx, m);
      shm.req, shm.ack := shm.req + 1, shm.ack - 1;
      idx := next;
    }

    /** `Probe` of the send port always answers no. */
    method Probe() returns (r: bool)
      ensures !r
    {
      r := false;
    }

    method Join()
      modifies this`done
      ensures done
    {
      done := true;
    }
  }

  /** The segment and cursors agree: `req` written slots follow the receive
      cursor `ridx`, the send cursor comes right after them, and every slot
      is either written or free. */
  ghost predicate Layout(s: ShmemSendPort, ridx: nat)
    reads s, s.shm
  {
    Cursors(s.size, s.nbytes, s.shm.slots, s.shm.data.Length, s.idx, ridx, s.shm.req, s.shm.ack)
  }

  /** `Layout` on the values of the fields. */
  predicate Cursors(size: nat, nbytes: nat, slots: nat, length: nat, idx: nat, ridx: nat, req: nat, ack: nat)
  {
    && size == slots && size > 0
    && nbytes >= HEADER_SIZE
    && length == size * nbytes
    && idx < size && ridx < size
    && req + ack == size
    && idx == Slot(ridx, req, size)
  }

  /** One store into a free slot keeps the cursors in step and appends the
      message to the decoded queue. */
  lemma StoreStep(size: nat, nbytes: nat, idx: nat, ridx: nat, req: nat, ack: nat,
                  data: seq<byte>, m: MetaData)
    requires Cursors(size, nbytes, size, |data|, idx, ridx, req, ack) && ack > 0
    requires Queued(data, size, nbytes, ridx, req)
    requires WellFormed(m) && 0 <= Len(m) <= |m.mdata| && Len(m) <= nbytes - HEADER_SIZE
    ensures var d := Overwrite(data, size, nbytes, idx, SlotImage(m, SlotAt(data, size, nbytes, idx)));
      && Cursors(size, nbytes, size, |d|, Next(idx, size), ridx, req + 1, ack - 1)
      && Queued(d, size, nbytes, ridx, req + 1)
      && Messages(d, size, nbytes, ridx, req + 1) == Messages(data, size, nbytes, ridx, req) + [Received(m)]
  {
    PushSlot(data, size, nbytes, ridx, req, idx, m);
    SlotStep(ridx, req, size);
  }

  ghost predicate Coherent(s: ShmemSendPort, ridx: nat)
    reads s, s.shm, s.shm.data
  {
    Layout(s, ridx) && Queued(s.shm.data[..], s.size, s.nbytes, ridx, s.shm.req)
  }

  /** The messages written and not yet read, oldest first. */
  ghost function InFlight(s: ShmemSendPort, ridx: nat): (w: seq<MetaData>)
    requires Coherent(s, ridx)
    reads s, s.shm, s.shm.data
    ensures |w| == s.shm.req <= s.size
  {
    Messages(s.shm.data[..], s.size, s.nbytes, ridx, s.shm.req)
  }

  /** The ring receiver, used when the channel is deeper than one slot. */
  class ShmemRecvPort {
    const name: string
    const shm: SharedMemory
    const size: nat
    const nbytes: nat
    var done: bool
    var idx: nat

    constructor (name: string, shm: SharedMemory, size: nat, nbytes: nat)
      ensures this.name == name && this.shm == shm && this.size == size && this.nbytes == nbytes
      ensures !done && idx == 0
    {
      this.name, this.shm, this.size, this.nbytes := name, shm, size, nbytes;
      done, idx := false, 0;
    }

    /** The peer send port writes into this port's ring. */
    ghost predicate Peer(s: ShmemSendPort)
      reads this
    {
      s.shm == shm && s.size == size && s.nbytes == nbytes
    }

    /** One pass of `Recv`'s loop. After `Join` the loop is not entered and
        the source returns no value. Otherwise a failed `Load` means the
        port sleeps and tries again; a successful one decodes slot `idx` and
        advances `idx` modulo `size` exactly once. */
    method Recv(ghost s: ShmemSendPort) returns (r: Poll<MetaData>)
      requires Peer(s) && Coherent(s, idx)
      modifies this`idx, shm
      ensures Coherent(s, idx)
      ensures old(done) ==> r == Closed
      ensures !old(done) && old(shm.req) == 0 ==> r == Pending
      ensures r.Ready? <==> !old(done) && old(shm.req) > 0
      ensures r.Ready? ==> r.value == old(InFlight(s, idx))[0] && InFlight(s, idx) == old(InFlight(s, idx))[1..]
                           && idx == Next(old(idx), size) && shm.req == old(shm.req) - 1 && shm.ack == old(shm.ack) + 1
      ensures !r.Ready? ==> idx == old(idx) && shm.req == old(shm.req) && shm.ack == old(shm.ack)
    {
      if done {
        return Closed;
      }
      if shm.req == 0 {
        return Pending;
      }
      ghost var data, n := shm.data[..], shm.req;
      PopSlot(data, size, nbytes, idx, n);
      SlotStep(idx, n - 1, size);
      var m := MetaDataFromPointer(SlotAt(shm.data[..], size, nbytes, idx), nbytes - HEADER_SIZE);
      var next := (idx + 1) % size;
      assert next == Next(idx, size);
      shm.req, shm.ack := shm.req - 1, shm.ack + 1;
      assert shm.data[..] == data;
      idx := next;
      r := Ready(m.value);
    }

    /** `Peek`: the decoding lambda writes into a local that shadows the
        result, so the caller always gets the value-initialised metadata;
        the cursor does not move. */
    method Peek() returns (r: MetaData)
      ensures r == EmptyMeta()
    {
      r := EmptyMeta();
    }

    /** `Peek` as evidently intended: decode slot `idx` without consuming
        it. */
    method PeekHead(ghost s: ShmemSendPort) returns (r: Poll<MetaData>)
      requires Peer(s) && Coherent(s, idx)
      ensures r == if shm.req == 0 then Pending else Ready(InFlight(s, idx)[0])
    {
      if shm.req == 0 {
        return Pending;
      }
      PopSlot(shm.data[..], size, nbytes, idx, shm.req);
      var m := MetaDataFromPointer(SlotAt(shm.data[..], size, nbytes, idx), nbytes - HEADER_SIZE);
      r := Ready(m.value);
    }

    /** `Probe`: a message is waiting. */
    method Probe() returns (r: bool)
      ensures r == (shm.req > 0)
    {
      r := shm.req > 0;
    }

    /** `Join`: sets `done` once; a second call changes nothing. */
    method Join()
      modifies this`done
      ensures done
    {
      if !done {
        done := true;
      }
    }
  }

  /** The single-slot receiver, used for a channel of depth one: it always
      decodes the slot at offset 0. */
  class ShmemBlockRecvPort {
    const name: string
    const shm: SharedMemory
    const size: nat := 1
    const nbytes: nat

    constructor (name: string, shm: SharedMemory, nbytes: nat)
      ensures this.name == name && this.shm == shm && this.nbytes == nbytes
    {
      this.name, this.shm, this.nbytes := name, shm, nbytes;
    }

    ghost predicate Peer(s: ShmemSendPort)
      reads this
    {
      s.shm == shm && s.size == size && s.nbytes == nbytes
    }

    /** `Recv`: waits for the one slot to be written, then decodes it. */
    method Recv(ghost s: ShmemSendPort) returns (r: Poll<MetaData>)
      requires Peer(s) && Coherent(s, 0)
      modifies shm
      ensures Coherent(s, 0)
      ensures old(shm.req) == 0 ==> r == Pending && shm.req == 0 && shm.ack == old(shm.ack)
      ensures old(shm.req) > 0 ==> r == Ready(old(InFlight(s, 0))[0]) && InFlight(s, 0) == []
                                   && shm.req == 0 && shm.ack == 1
    {
      if shm.req == 0 {
        return Pending;
      }
      PopSlot(shm.data[..], size, nbytes, 0, shm.req);
      var m := MetaDataFromPointer(SlotAt(shm.data[..], size, nbytes, 0), nbytes - HEADER_SIZE);
      shm.req := shm.req - 1;
      shm.ack := shm.ack + 1;
      r := Ready(m.value);
    }

    /** `Peek`: decodes the one slot without consuming it. */
    method Peek(ghost s: ShmemSendPort) returns (r: Poll<MetaData>)
      requires Peer(s) && Coherent(s, 0)
      ensures r == if shm.req == 0 then Pending else Ready(InFlight(s, 0)[0])
    {
      if shm.req == 0 {
        return Pending;
      }
      PopSlot(shm.data[..], size, nbytes, 0, shm.req);
      var m := MetaDataFromPointer(SlotAt(shm.data[..], size, nbytes, 0), nbytes - HEADER_SIZE);
      r := Ready(m.value);
    }

    method Probe() returns (r: bool)
      ensures r == (shm.req > 0)
    {
      r := shm.req > 0;
    }
  }
}
